=== FILE: README.md ===
# invidious-stripped-down proxy core, in Dafny

The proxy in `index.js` sits in front of YouTube's player API. For a video
id it gets the video-info record, trying the ANDROID client first, WEB
when ANDROID throws, and TV_EMBEDDED when the record carries a
playability reason. It caches a trimmed copy of the record under
`<id>-dash` or `<id>-latest`. It answers four routes:

- a DASH manifest;
- an HLS master playlist, fetched from the origin with the origin host rewritten to the proxy host;
- an HLS media playlist, passed through with the bare domain `youtube.com` rewritten to the proxy host;
- a redirect to one format's media URL with its host replaced by the proxy host.

This project models that core as pure Dafny functions.

- `outcomes.dfy` (`Outcomes`): `Option` and `Result`.
- `js_text.dfy` (`JsText`): the JavaScript string operations the routes use. These are `indexOf`/`includes`; `split` followed by `[0]` or `.pop()`; `replaceAll`; the `/\w+/` match; and the decimal reading of an itag query.
- `urls.dfy` (`Urls`): the part of WHATWG URL parsing the routes rely on, plus the `host` setter.
- `video.dfy` (`Video`): the records (format, streaming data, playability status, video info), the trimmed cache entry and the placeholder entry.
- `shaper.dfy` (`Shaper`): the two shapes. The dash shape is the mime filter plus the manifest. The latest shape is the decipher loop.
- `resolver.dfy` (`Resolver`): `getBasicVideoInfoDash` and `getBasicVideoInfoLatestVersion`. Each is a function from a configuration, an upstream oracle, a shape, a video id and a cache to a result, the new cache and a trace of lookups, upstream calls and cache writes.
- `handlers.dfy` (`Handlers`): the four routes. Each takes the request, the cache and an HTTP-client oracle, and gives the response and the new cache.
- `findings.dfy` (`Findings`): two defects of the code, each shown on the code as written and proved fixed on the corrected reading.
- `scenarios.dfy` (`Scenarios`): two worked requests.

Two things are process-wide settings in `Resolver.Config`. The first is the
dash mime filter: `ContainsZero` is what the code does and `Mp4Containers`
is what it means. The second is the error policy of the fallback:
`Propagate` is what the code does and `Absorb` is what it means.
`Resolver.Deployed` is the code as written and `Resolver.Intended` is the
corrected reading. Every other result is proved for both.

The upstream library's `getBasicInfo`, `toDash` and `decipher` are function
parameters (`Resolver.Upstream`), and so is undici's `request`
(`Handlers.Fetch`). Nothing about them is assumed beyond their being
functions of the arguments the model gives them; the one choice this makes
is listed under "## Left out".

## Model

| member | source | states |
|---|---|---|
| JsText.IndexOf | index.js:46 | the result is the first position where the pattern occurs, or none when it occurs nowhere |
| JsText.IncludesChar | index.js:46 | `includes` of a one-character string holds exactly when the character is in the text |
| JsText.FirstPiece | index.js:167 | `split(sep)[0]` is a prefix free of the separator, ending at the first separator or at the end of the text |
| JsText.Split | index.js:167 | `split(sep)` for a non-empty separator: joining its pieces with the separator gives the text back |
| JsText.LastPiece | index.js:118 | `split(sep).pop()` is a suffix free of the separator, preceded by a separator when there is one, and no separator starts inside it |
| JsText.LastPieceIsPop | index.js:118 | that suffix is exactly the last element of the full split |
| JsText.JoinSplit | index.js:118 | joining the split pieces with the separator gives the text back |
| JsText.SplitPiecesFree | index.js:118 | no piece of a split contains the separator |
| JsText.ReplaceAllIsSplitJoin | index.js:149 | `replaceAll(pat, rep)` equals splitting on `pat` and joining with `rep` |
| JsText.ReplaceAll | index.js:177 | `replaceAll` with a literal replacement returns a text without the pattern unchanged; `JsText.ReplaceAllIsSplitJoin` gives its full meaning |
| JsText.RewriteCharacterisation | index.js:177 | a rewritten document is the origin document's pattern-free pieces joined by the replacement |
| JsText.ReplaceAllAbsent | index.js:177 | a document that does not mention the pattern is passed through unchanged |
| JsText.MatchWord | index.js:122 | the `\w+` match is the leftmost maximal run of word characters, and there is none exactly when the text has no word character |
| JsText.DecimalRoundTrip | index.js:202 | reading the decimal spelling of an itag gives the itag back |
| Urls.ParseUrl | index.js:210 | a successful parse yields a well-formed URL, and text without `://` does not parse |
| Urls.Serialize | index.js:212 | in the text of a well-formed URL the first `://` ends the scheme, which is where parsing the redirect text starts |
| Urls.ParseSerialize | index.js:210-212 | parsing the text of a well-formed URL gives the URL back |
| Urls.WithHost | index.js:211 | the host setter changes the host only and keeps the URL well formed |
| Urls.RewrittenHostParses | index.js:210-212 | the redirect text parses back to the format URL's scheme, path and query at the proxy host |
| Video.Restore | index.js:25-26 | a cached entry handed back as a record trims back to the same entry |
| Video.TrimKeepsCachedFields | index.js:54 | the cached projection keeps exactly the status and the streaming data: two records trim alike exactly when they agree on those, and a restored entry holds nothing else |
| Video.NegativeEntry | index.js:31-36 | the placeholder is not playable, has a reason and has no streaming data |
| Shaper.FilterFormats | index.js:45-46 | every entry the dash filter returns passes the filter |
| Shaper.Keeps | index.js:46 | as written, the per-entry test keeps a format exactly when its mime type contains the character `0` |
| Shaper.FilterIsSubsequence | index.js:45-46 | the filter keeps the surviving entries in their original order |
| Shaper.FilterCounts | index.js:45-46 | kept entries survive as often as they occur in the input, and dropped ones never |
| Shaper.FilterKeepsExactly | index.js:45-46 | an input entry survives the filter exactly when the filter accepts it |
| Shaper.ShapeDash | index.js:44-52 | the dash shape narrows only the adaptive formats, sets the manifest to `toDash` of the narrowed record at the proxy host, and leaves status, formats and HLS URL unchanged |
| Shaper.Deciphered | index.js:85-86 | an entry with a signature cipher gets the deciphered URL, and any other entry is unchanged |
| Shaper.DecipherFormats | index.js:83-89 | the loop gives a list of the same length and order, each entry deciphered as above |
| Shaper.ShapeLatest | index.js:82-90 | the latest shape rewrites the formats one by one and leaves adaptive formats, HLS URL and status alone |
| Resolver.KeysNeverCollide | index.js:60 | no dash key equals any latest key, whatever the two video ids |
| Resolver.KeyDeterminesVideo | index.js:22 | two video ids with the same key in one shape are the same id |
| Resolver.KeyInjective | index.js:60 | two keys are equal exactly when they name the same video in the same shape |
| Resolver.FirstAttempt | index.js:28-38 | ANDROID first; exactly when it throws, the placeholder is written and WEB is asked; the record agrees with the reference reading |
| Resolver.Escalate | index.js:40-42 | TV_EMBEDDED is asked exactly when the working record's reason is truthy, and the cache is not touched |
| Resolver.Stages | index.js:28-42 | the two upstream stages produce exactly the reference reading's record, calls and placeholder write |
| Resolver.ShapeFor | index.js:44-52 | shaping never changes the playability status |
| Resolver.Finish | index.js:54-56 | a completed resolution writes the trimmed shaped record last, and an escaped error writes nothing more |
| Resolver.Resolve | index.js:21-57 | the lookup comes first, only the video's own key is touched, and a completed result is what the cache now holds |
| Resolver.MissTrace | index.js:21-57 | a miss records the lookup, the first stage, the escalation and the final write, in that order |
| Resolver.FallbackOrder | index.js:28-42 | ANDROID is asked first, WEB exactly when ANDROID threw, TV_EMBEDDED exactly on a truthy reason; at most three calls |
| Resolver.MissOutcome | index.js:28-56 | a miss completes exactly when the reference reading settles on a record, and returns that record shaped |
| Resolver.MissWrites | index.js:31-54 | a miss writes the placeholder exactly when ANDROID threw and the result exactly when it completes; an escaped error leaves the placeholder |
| Resolver.CacheHit | index.js:23-26 | a cached key is answered from the cache with no upstream call and no write |
| Resolver.SecondResolutionHits | index.js:21-57 | after a completed resolution, the same request is a pure cache hit returning the trimmed record |
| Resolver.ReadsOnlyOwnKey | index.js:22-26 | a resolution depends on the cache only through its own key |
| Resolver.ShapesIsolated | index.js:60 | resolving in one shape never changes an entry of the other shape |
| Resolver.DashKeys | index.js:22 | dash keys end in `-dash` and latest keys do not |
| Resolver.ResolveKeepsDashReady | index.js:44-54 | every resolution keeps all dash entries manifest-bearing and filter-clean |
| Handlers.CantPlayMessage | index.js:104 | the unplayable error names both the video id and the reason |
| Handlers.NoUrlMessage | index.js:208 | the no-URL error names the video id |
| Handlers.CheckPlayable | index.js:103-105 | a record passes exactly when its status is `OK`; resolver errors pass through unchanged |
| Handlers.DashResponse | index.js:101-111 | 200 with the manifest exactly when the record is playable and has one; 400 with an error object exactly when not playable or without streaming data; for a non-OK status that error is the can't-play message naming the id and the reason |
| Handlers.ServeDash | index.js:97-112 | the dash route touches only the dash key, and a 200 serves the manifest now cached for that key |
| Handlers.DashServesManifest | index.js:106-107 | on a manifest-bearing cache the dash route never answers with an empty body, and the cache stays manifest-bearing |
| Handlers.IdSegment | index.js:118 | the segment is free of `/` and is a prefix of the last piece of `split('/id/')`, which starts after the last `/id/` that the left-to-right split consumes |
| Handlers.IdSegmentLocated | index.js:118 | the segment starts right after the last `/id/` the left-to-right split consumes (no occurrence starts at or after that point, though an overlapping one may start earlier), and ends at a `/` or at the end |
| Handlers.OverlappingMarkers | index.js:118 | in `/id/id/x` the split consumes the `/id/` at 0, so the segment is `id`, although another `/id/` starts at 3 |
| Handlers.IdFromSegment | index.js:121-131 | an empty segment is "not found"; a segment without word characters crashes; otherwise the id is the leftmost longest run of word characters in the segment, the `\w+` match |
| Handlers.ExtractVideoId | index.js:118-131 | the same three outcomes, stated on the request URL, with the found id the `\w+` match of the segment, the first `/`-piece of the last piece of `split('/id/')` |
| Handlers.VariantTarget | index.js:135-144 | the variant route fetches exactly when the record is playable with a parseable HLS URL; the target is that URL's path on the origin host; a non-OK status stops it with the can't-play message naming the id and the reason |
| Handlers.OriginTargetParses | index.js:144 | the origin address parses back to `https`, the origin host and the manifest path |
| Handlers.Mirror | index.js:148-155 | a 200 is served as the fetched pieces joined by the proxy host; other statuses are mirrored with the upstream body |
| Handlers.VariantResponse | index.js:133-160 | errors before the fetch and a rejected fetch give 400 with the error, and a fetched document is mirrored with the origin host rewritten |
| Handlers.ServeHlsVariant | index.js:114-161 | the variant route's outcomes: "not found", the crash on an unmatched segment, and the cache touched only under the found id's latest key |
| Handlers.VariantServesRewrittenPlaylist | index.js:148-150 | a 200 from the origin reaches the client with every `www.youtube.com` replaced by the proxy host |
| Handlers.PlaylistTarget | index.js:167 | the playlist route fetches the request path without its query string from the origin |
| Handlers.ServeHlsPlaylist | index.js:163-184 | the playlist route crashes exactly when the fetch fails, and otherwise mirrors the status with `youtube.com` rewritten |
| Handlers.PlaylistRewriteKeepsWww | index.js:177 | the playlist rewrite turns `www.youtube.com` into `www.` plus the proxy host, where the variant route replaces it whole |
| Handlers.MatchingFormats | index.js:202 | the filter's entries all match the itag and come from the list; it is empty exactly when no entry matches |
| Handlers.ItagMatches | index.js:202 | a format matches the decimal spelling of its own itag, and only a non-empty string of digits matches at all |
| Handlers.FirstMatchFrom | index.js:202-203 | the reference reading: the index of the first entry with the itag |
| Handlers.SelectFormat | index.js:202-207 | nothing is selected exactly when no entry carries the itag; a selected entry is from the list and carries it |
| Handlers.SelectionIsFirstMatch | index.js:202-207 | filtering then taking the head selects the first matching entry |
| Handlers.UniqueItagSelection | index.js:202-207 | with distinct itags, the entry carrying the requested itag is the one selected |
| Handlers.Selected | index.js:200-202 | the selected entry comes from the formats followed by the adaptive formats |
| Handlers.LatestResponse | index.js:195-217 | a redirect happens exactly when a playable record has a matching entry with a parseable URL; it points at that URL on the proxy host; "No itag found." when no entry matches; a non-OK status gets 400 with the can't-play message naming the id and the reason; a matching entry without a URL gets 400 with the no-URL message naming the id; missing streaming data and an unparseable URL get their own 400 errors |
| Handlers.ServeLatestVersion | index.js:186-218 | a missing parameter gets the instructions with the cache untouched; only the video's latest key changes; every redirect parses and names the proxy host |
| Findings.DeployedFilterTestsForZero | index.js:46 | as written, the dash filter keeps a format exactly when its mime type contains the character `0` |
| Findings.PlainMp4Misjudged | index.js:46 | `video/mp4` is dropped as written and kept as intended |
| Findings.WebmMisjudged | index.js:46 | a VP9 WebM mime type is kept as written and dropped as intended |
| Findings.DeployedFilterMisclassifies | index.js:45-46 | on the two-entry list, the code keeps the WebM entry while the intended filter keeps the MPEG-4 one |
| Findings.DeployedManifestGetsWebm | index.js:45-51 | on that list, the manifest as written is rendered from the WebM entry alone, and as intended from the MPEG-4 entry alone |
| Findings.IntendedFilterKeepsMp4 | index.js:45-46 | the corrected filter keeps exactly the audio/mp4 and video/mp4 entries, in order and with their multiplicity |
| Findings.DeployedFallbackEscapes | index.js:28-38 | as written, ANDROID and WEB both throwing ends in WEB's error with the placeholder cached |
| Findings.DeployedEscalationEscapes | index.js:40-42 | as written, a TV_EMBEDDED error escapes although a record was in hand, and nothing is cached |
| Findings.DeployedFailureIsSticky | index.js:31-37 | as written, the dash route fails with WEB's error, and the next request fails from the cache without asking upstream |
| Findings.IntendedFallbackAnswers | index.js:21-57 | with errors absorbed, every resolution completes and caches its trimmed result |
| Findings.IntendedFailureReportsReason | index.js:28-42 | with errors absorbed, when ANDROID, WEB and TV_EMBEDDED all throw, the dash route reports the placeholder's reason at once |
| Scenarios.RedirectThroughProxy | index.js:186-212 | `/latest_version?id=abc123&itag=22` with itag 22 at `https://origin/x` redirects to `https://proxy.example/x` and caches the record |
| Scenarios.PlayableResolves | index.js:59-95 | a record without ciphers resolves unchanged and is cached under `abc123-latest` |
| Scenarios.Itag22Redirects | index.js:200-212 | itag 22 is selected and its URL rewritten to the proxy host |
| Scenarios.BlockedDash | index.js:97-112 | a video every client reports unplayable costs two upstream calls and gets a 400 naming the video and the reason; the unplayable record is cached |

## Left out

- The Koa and router plumbing is not modelled. This covers route matching, the `access-control-allow-origin` header every route sets, `console.log`, the bind address and port, and the DNS ordering setting.
- The Keyv store with its QuickLRU back end is modelled as a map seen between two requests. The one-hour expiry and the 5000-entry eviction are not modelled: an entry that expired or was evicted is simply absent from the cache a request starts with. The store's JSON round trip is modelled by `Video.Restore`, which drops every field other than the two cached ones.
- Concurrency is not modelled. Two requests for the same key interleaving at their `await`s are not considered; each request runs to completion against the cache the previous one left.
- The upstream library's `getBasicInfo`, `toDash` and `decipher` are oracles, and so is the HTTP client. `toDash` and `decipher` never throw in the model.
- A failed `body.text()` is folded into `Handlers.Fetch`'s failure case.
- `Shaper.ShapeDash`: the model gives `toDash` the narrowed streaming data and the proxy host. The code calls the library's `toDash` on the whole record, so the model assumes the manifest depends on nothing else in the record (for example, not on `basic_info`).
- The error body is left as the message. An `Error` assigned to `ctx.body` is serialised by Koa as JSON, and its message is not an enumerable property, so the client actually receives `{}`. The model keeps `ErrorObject(message)` so the message contracts can be stated.
- `Handlers.Response`: the `contentType` field is the type the route set. Koa replaces it with JSON for error-object bodies and removes it for an empty (204) body.
- `Handlers.Response`: a `Crash` is an exception outside any `try`. Koa answers it with 500 Internal Server Error, and the model keeps only the message.
- `Handlers.ItagMatches`: only decimal-digit itag queries are modelled. JavaScript's `==` also converts strings with surrounding blanks, a sign, a hex prefix, a fraction or an exponent. The model treats those as matching no itag, where the code could still match.
- `Handlers.ServeLatestVersion`: the query parameters are single optional strings. A repeated parameter arrives in Koa as an array, and that case is not modelled.
- `Handlers.ServeLatestVersion`: it requires a valid host in `HOST_PROXY` (non-empty, without `/`, `?` or `#`). The host setter silently ignores or truncates an invalid value, and that behaviour is not modelled.
- `Handlers.LatestResponse`: it requires the same valid `HOST_PROXY`, for the same reason; it is where the host setter is applied.
- `Urls.WithHost`: it stores any valid host as given. The WHATWG host setter also rejects a host holding a space, `@`, `:` followed by a non-numeric port and other forbidden host code points, and then leaves the URL unchanged; the model does not reject those values, so for such a `HOST_PROXY` the redirect differs from the code's.
- `Urls.ParseUrl`: it covers absolute `scheme://host/path?query#fragment` text only. It does not do percent-encoding, case folding, dot-segment removal, userinfo or port handling, or relative references. A scheme containing `:` is treated as invalid.
- JsText.ReplaceAll: the replacement is copied literally. ECMAScript expands `$$`, `$&`, `` $` `` and `$'` in a string replacement; the model assumes the proxy host in `HOST_PROXY` contains no `$`, so `Handlers.Mirror`, `Handlers.ServeHlsVariant` and `Handlers.ServeHlsPlaylist` are faithful only for such a host.
- The variant route's fallback to the `id` query parameter is not modelled as an outcome. It only applies when the path segment is `null`, and a split always yields a string, so `Handlers.ExtractVideoId` has no such case.
- Host-rewrite totality (no origin host name left in a document after the rewrite) does not hold for the code. Proved instead: `replaceAll` equals split-and-join (`JsText.ReplaceAllIsSplitJoin`). So a proxy host that itself contains the pattern reintroduces it. The playlist route rewrites only the bare domain and leaves a `www.` label in front of the proxy host (`Handlers.PlaylistRewriteKeepsWww`).

## Findings

| source | as written | input that shows it | evidently intended | confidence | as-written member | corrected member |
|---|---|---|---|---|---|---|
| index.js:46 | The filter tests `includes` against the bitwise OR of the two mime strings. That OR is the number 0, so the test keeps mime types containing the character `0`. | a `video/mp4` entry (no `0`, dropped) and a `video/webm; codecs="vp09.00.51.08"` entry (has a `0`, kept) | keep the entries whose mime type names audio/mp4 or video/mp4 | high; not executed | Findings.DeployedFilterMisclassifies | Findings.IntendedFilterKeepsMp4 |
| index.js:37 | The WEB call in the `catch` and the TV_EMBEDDED call are not guarded. An error from either escapes the resolver after the placeholder was written, so the route answers 400 with the library's error, and for an hour the placeholder is served without asking upstream again. | a video for which ANDROID and WEB both throw | answer with the placeholder's "Video unavailable" reason (or keep the record already in hand) instead of letting the error escape | medium; not executed | Findings.DeployedFallbackEscapes | Findings.IntendedFallbackAnswers |

=== FILE: findings.dfy ===
/**
 * Two places where index.js does something other than what it evidently
 * means, each shown on the code as written (`Deployed`) and proved
 * right on the corrected reading (`Intended`).
 */
module Findings {
  import opened Outcomes
  import opened JsText
  import opened Video
  import opened Shaper
  import opened Resolver
  import opened Handlers

  // ---------------------------------------------------------------------
  // The dash filter. `"audio/mp4" | "video/mp4"` is a bitwise OR of two
  // strings that are not numbers, which is 0; `includes(0)` then looks for
  // the text "0". The filter keeps mime types containing a zero digit.

  /** Text containing a pattern contains each character of the pattern. */
  lemma IncludedCharacters(s: string, pat: string, c: char)
    requires c in pat && Includes(s, pat)
    ensures c in s
  {
    var i := IndexOf(s, pat).value;
    assert s[i..i + |pat|] == pat;
    var k :| 0 <= k < |pat| && pat[k] == c;
    assert s[i + k] == c;
  }

  /** As written, the dash filter is a test for the character `0`. */
  lemma DeployedFilterTestsForZero(f: Format)
    ensures Keeps(ContainsZero, f) <==> '0' in f.mime_type
  {
    IncludesChar(f.mime_type, '0');
    assert "0" == ['0'];
  }

  const PlainMp4 := Format(18, "video/mp4", Some("https://origin/v18"), None)
  const WebmCodec := "codecs=\"vp09.00.51.08\""
  const WebmVp9 := Format(248, "video/webm; " + WebmCodec, Some("https://origin/v248"), None)

  /** An MPEG-4 video entry without a zero digit: dropped as written, kept as intended. */
  lemma PlainMp4Misjudged()
    ensures !Keeps(ContainsZero, PlainMp4) && Keeps(Mp4Containers, PlainMp4)
  {
    DeployedFilterTestsForZero(PlainMp4);
    assert '0' !in PlainMp4.mime_type;
    IncludesMiddle("", "video/mp4", "");
    assert "" + "video/mp4" + "" == PlainMp4.mime_type;
  }

  /** A WebM entry with a zero digit: kept as written, dropped as intended. */
  lemma WebmMisjudged()
    ensures Keeps(ContainsZero, WebmVp9) && !Keeps(Mp4Containers, WebmVp9)
  {
    DeployedFilterTestsForZero(WebmVp9);
    var mime := WebmVp9.mime_type;
    assert WebmCodec[10] == '0';
    assert mime[22] == '0';
    assert '4' !in mime by {
      NoFourInPieces("video/webm; ", WebmCodec);
    }
    NoFourNoMp4(mime);
  }

  lemma NoFourInPieces(a: string, b: string)
    requires '4' !in a && '4' !in b
    ensures '4' !in a + b
  {
  }

  /** A mime type without the digit `4` names neither MPEG-4 container. */
  lemma NoFourNoMp4(mime: string)
    requires '4' !in mime
    ensures !Includes(mime, "audio/mp4") && !Includes(mime, "video/mp4")
  {
    if Includes(mime, "audio/mp4") {
      IncludedCharacters(mime, "audio/mp4", '4');
    }
    if Includes(mime, "video/mp4") {
      IncludedCharacters(mime, "video/mp4", '4');
    }
  }

  /**
   * The counterexample on a whole list: the deployed filter hands the
   * manifest generator the WebM entry and not the MPEG-4 one.
   */
  lemma DeployedFilterMisclassifies()
    ensures FilterFormats(ContainsZero, [PlainMp4, WebmVp9]) == [WebmVp9]
    ensures FilterFormats(Mp4Containers, [PlainMp4, WebmVp9]) == [PlainMp4]
  {
    PlainMp4Misjudged();
    WebmMisjudged();
    FilterPair(ContainsZero, PlainMp4, WebmVp9);
    FilterPair(Mp4Containers, PlainMp4, WebmVp9);
  }

  /**
   * What the manifest generator receives for a record with those two
   * adaptive entries: the WebM entry alone as written, the MPEG-4 entry
   * alone as intended.
   */
  lemma DeployedManifestGetsWebm(toDash: (StreamingData, string) -> string, hostname: string, info: VideoInfo)
    requires info.streaming_data.Some? && info.streaming_data.value.adaptive_formats == [PlainMp4, WebmVp9]
    ensures var sd := info.streaming_data.value;
      && ShapeDash(ContainsZero, toDash, hostname, info).streaming_data.value.dash_file
         == Some(toDash(sd.(adaptive_formats := [WebmVp9]), hostname))
      && ShapeDash(Mp4Containers, toDash, hostname, info).streaming_data.value.dash_file
         == Some(toDash(sd.(adaptive_formats := [PlainMp4]), hostname))
  {
    DeployedFilterMisclassifies();
  }

  /** Filtering a two-entry list, entry by entry. */
  lemma FilterPair(filter: MimeFilter, a: Format, b: Format)
    ensures FilterFormats(filter, [a, b]) ==
      (if Keeps(filter, a) then [a] else []) + (if Keeps(filter, b) then [b] else [])
  {
    assert [a, b][1..] == [b];
    assert [b][1..] == [];
    assert FilterFormats(filter, [b]) == (if Keeps(filter, b) then [b] else []);
  }

  /**
   * The corrected filter keeps exactly the MPEG-4 audio and video entries,
   * in their original order and multiplicity.
   */
  lemma IntendedFilterKeepsMp4(fs: seq<Format>)
    ensures var r := FilterFormats(Mp4Containers, fs);
      && (forall f :: f in fs ==> (f in r <==> Includes(f.mime_type, "audio/mp4") || Includes(f.mime_type, "video/mp4")))
      && IsSubsequence(r, fs)
      && (forall f :: multiset(r)[f] == if Keeps(Mp4Containers, f) then multiset(fs)[f] else 0)
  {
    forall f | f in fs
      ensures f in FilterFormats(Mp4Containers, fs) <==>
        Includes(f.mime_type, "audio/mp4") || Includes(f.mime_type, "video/mp4")
    {
      FilterKeepsExactly(Mp4Containers, fs, f);
    }
    FilterIsSubsequence(Mp4Containers, fs);
    FilterCounts(Mp4Containers, fs);
  }

  // ---------------------------------------------------------------------
  // The fallback. The WEB call and the TV_EMBEDDED call are not guarded, so
  // an error from either escapes the resolver, after the placeholder has
  // been written: the client gets a 400 and, for the next hour, the
  // placeholder is served instead of asking upstream again.

  /** As written: ANDROID and WEB both throwing ends the resolution in an error, with the placeholder cached. */
  lemma DeployedFallbackEscapes(hostname: string, up: Upstream, shape: Shape, videoId: string, cache: Cache)
    requires Key(videoId, shape) !in cache
    requires up.getBasicInfo(videoId, Android).Threw? && up.getBasicInfo(videoId, Web).Threw?
    ensures var res := Resolve(Deployed(hostname), up, shape, videoId, cache);
      && res.result == Err(up.getBasicInfo(videoId, Web).error)
      && Key(videoId, shape) in res.cache
      && res.cache[Key(videoId, shape)] == NegativeEntry(videoId)
  {
    MissOutcome(Deployed(hostname), up, shape, videoId, cache);
    MissWrites(Deployed(hostname), up, shape, videoId, cache);
    Stages(Deployed(hostname), up, videoId, Key(videoId, shape), cache);
  }

  /** As written: a TV_EMBEDDED error also escapes, though a record is already in hand. */
  lemma DeployedEscalationEscapes(hostname: string, up: Upstream, shape: Shape, videoId: string, cache: Cache)
    requires Key(videoId, shape) !in cache
    requires up.getBasicInfo(videoId, Android).Returned?
    requires Truthy(up.getBasicInfo(videoId, Android).info.playability_status.reason)
    requires up.getBasicInfo(videoId, TvEmbedded).Threw?
    ensures Resolve(Deployed(hostname), up, shape, videoId, cache).result.Err?
    ensures Resolve(Deployed(hostname), up, shape, videoId, cache).cache == cache
  {
    MissOutcome(Deployed(hostname), up, shape, videoId, cache);
    MissWrites(Deployed(hostname), up, shape, videoId, cache);
  }

  /**
   * As written, end to end: the dash request fails with WEB's error, and the
   * next one, served from the cache, fails as unplayable without asking upstream.
   */
  lemma DeployedFailureIsSticky(hostname: string, up: Upstream, videoId: string, cache: Cache)
    requires Key(videoId, Dash) !in cache
    requires up.getBasicInfo(videoId, Android).Threw? && up.getBasicInfo(videoId, Web).Threw?
    ensures var first := ServeDash(Deployed(hostname), up, videoId, cache);
      var second := ServeDash(Deployed(hostname), up, videoId, first.cache);
      && first.response == Reply(400, None, ErrorObject(up.getBasicInfo(videoId, Web).error))
      && second.response.Reply? && second.response.status == 400
      && Includes(second.response.body.message, UnavailablePrefix + videoId)
      && second.cache == first.cache
  {
    var cfg := Deployed(hostname);
    var key := Key(videoId, Dash);
    DeployedFallbackEscapes(hostname, up, Dash, videoId, cache);
    var first := ServeDash(cfg, up, videoId, cache);
    CacheHit(cfg, up, Dash, videoId, first.cache);
    var again := Resolve(cfg, up, Dash, videoId, first.cache);
    assert again.result == Ok(Restore(NegativeEntry(videoId)));
    assert again.result.value.playability_status.reason == Some(UnavailablePrefix + videoId);
  }

  /** When the fallback absorbs errors, the settled record always exists. */
  lemma AbsorbSettles(cfg: Config, up: Upstream, videoId: string)
    requires cfg.fallback == Absorb
    ensures Authoritative(cfg, up, videoId).Some?
  {
  }

  /**
   * Corrected: when errors are absorbed every resolution completes, with
   * its projection cached, and the trace never ends on an escaped error.
   */
  lemma IntendedFallbackAnswers(cfg: Config, up: Upstream, shape: Shape, videoId: string, cache: Cache)
    requires cfg.fallback == Absorb
    ensures var res := Resolve(cfg, up, shape, videoId, cache);
      && res.result.Ok?
      && Key(videoId, shape) in res.cache
      && res.cache[Key(videoId, shape)] == Trim(res.result.value)
  {
    if Key(videoId, shape) !in cache {
      AbsorbSettles(cfg, up, videoId);
      MissOutcome(cfg, up, shape, videoId, cache);
    }
  }

  /**
   * Corrected, end to end: with ANDROID and WEB both failing, the dash
   * route reports the placeholder's reason at once instead of WEB's error.
   */
  lemma IntendedFailureReportsReason(hostname: string, up: Upstream, videoId: string, cache: Cache)
    requires Key(videoId, Dash) !in cache
    requires up.getBasicInfo(videoId, Android).Threw? && up.getBasicInfo(videoId, Web).Threw?
    requires up.getBasicInfo(videoId, TvEmbedded).Threw?
    ensures var s := ServeDash(Intended(hostname), up, videoId, cache);
      && s.response.Reply? && s.response.status == 400
      && Includes(s.response.body.message, UnavailablePrefix + videoId)
  {
    var cfg := Intended(hostname);
    MissOutcome(cfg, up, Dash, videoId, cache);
    assert Authoritative(cfg, up, videoId) == Some(Restore(NegativeEntry(videoId)));
  }
}

=== FILE: handlers.dfy ===
/**
 * The four routes of the proxy, each a pure function of the request, the
 * cache, the process settings and the upstream oracles, returning what the
 * client receives and the cache the next request sees.
 */
module Handlers {
  import opened Outcomes
  import opened JsText
  import opened Urls
  import opened Video
  import opened Resolver

  /** What `ctx.body` ends up holding. */
  datatype Body =
    | Text(text: string)            // a string
    | ErrorObject(message: string)  // a caught `Error`
    | UpstreamStream                // the origin response's (already read) body stream
    | NoBody                        // `undefined`

  /**
   * What the client receives. `Reply` carries the status Koa sends and the
   * content type the route set; `Redirect` is `ctx.redirect(url)`; `Crash`
   * is an exception no `try` catches, which Koa answers itself.
   */
  datatype Response =
    | Reply(status: nat, contentType: Option<string>, body: Body)
    | Redirect(location: string)
    | Crash(message: string)

  /** A route's answer and the cache after it. */
  datatype Served = Served(response: Response, cache: Cache)

  const DashType := "application/dash+xml"
  const HlsType := "application/x-mpegURL"
  const Origin := "https://www.youtube.com"
  const OriginHost := "www.youtube.com"
  const PlaylistPattern := "youtube.com"
  const IdMarker := "/id/"
  const IdNotFound := "Video ID not found."
  const Instructions := "Please specify the itag and video ID"
  const NoItag := "No itag found."
  const InvalidUrl := "Invalid URL"

  /** The message of the `TypeError` thrown by reading `prop` off `undefined`. */
  function ReadOfUndefined(prop: string): string {
    "Cannot read properties of undefined (reading '" + prop + "')"
  }

  /** The message of the `TypeError` thrown by reading `prop` off `null`. */
  function ReadOfNull(prop: string): string {
    "Cannot read properties of null (reading '" + prop + "')"
  }

  /** String concatenation of an optional reason: absent is `"undefined"`. */
  function ReasonText(reason: Option<string>): (r: string)
    ensures reason.Some? ==> r == reason.value
  {
    match reason
    case None => "undefined"
    case Some(t) => t
  }

  /** The error every resolving route throws for a record that is not playable. */
  function CantPlayMessage(videoId: string, reason: Option<string>): (m: string)
    ensures Includes(m, videoId)
    ensures reason.Some? ==> Includes(m, reason.value)
  {
    var head := "The video can't be played: ";
    var middle := " due to reason: ";
    var m := head + videoId + middle + ReasonText(reason);
    assert m == head + videoId + (middle + ReasonText(reason));
    IncludesMiddle(head, videoId, middle + ReasonText(reason));
    assert m == (head + videoId + middle) + ReasonText(reason) + "";
    IncludesMiddle(head + videoId + middle, ReasonText(reason), "");
    m
  }

  /** The error `/latest_version` throws for a selected format without a URL. */
  function NoUrlMessage(videoId: string): (m: string)
    ensures Includes(m, videoId)
  {
    var head := "No URL, the video can't be played: ";
    assert head + videoId == head + videoId + "";
    IncludesMiddle(head, videoId, "");
    head + videoId
  }

  /**
   * The check every resolving route makes before using the record: an
   * error from the resolver passes through, a status other than `"OK"`
   * becomes the can't-play error naming the video and the reason.
   */
  function CheckPlayable(videoId: string, resolved: Result<VideoInfo, string>): (r: Result<VideoInfo, string>)
    ensures r.Ok? <==> resolved.Ok? && Playable(resolved.value)
    ensures r.Ok? ==> r.value == resolved.value
    ensures resolved.Err? ==> r == resolved
    ensures resolved.Ok? && !Playable(resolved.value) ==>
      && Includes(r.error, videoId)
      && (resolved.value.playability_status.reason.Some? ==>
            Includes(r.error, resolved.value.playability_status.reason.value))
  {
    match resolved
    case Err(e) => Err(e)
    case Ok(info) =>
      if Playable(info) then Ok(info)
      else Err(CantPlayMessage(videoId, info.playability_status.reason))
  }

  // ---------------------------------------------------------------------
  // /api/manifest/dash/id/:videoId

  /** The dash route's answer for a resolution outcome. */
  function DashResponse(videoId: string, resolved: Result<VideoInfo, string>): (r: Response)
    ensures r.Reply?
    ensures r.status == 200 <==>
      && resolved.Ok? && Playable(resolved.value)
      && resolved.value.streaming_data.Some?
      && resolved.value.streaming_data.value.dash_file.Some?
    ensures r.status == 200 ==>
      && r.contentType == Some(DashType)
      && r.body == Text(resolved.value.streaming_data.value.dash_file.value)
    ensures r.status == 400 <==>
      !(resolved.Ok? && Playable(resolved.value) && resolved.value.streaming_data.Some?)
    ensures r.status == 400 ==> r.body.ErrorObject?
    ensures resolved.Err? ==> r.body == ErrorObject(resolved.error)
    ensures resolved.Ok? && !Playable(resolved.value) ==>
      r == Reply(400, None, ErrorObject(CantPlayMessage(videoId, resolved.value.playability_status.reason)))
    ensures r.status in {200, 204, 400}
  {
    match CheckPlayable(videoId, resolved)
    case Err(m) => Reply(400, None, ErrorObject(m))
    case Ok(info) =>
      match info.streaming_data
      case None => Reply(400, Some(DashType), ErrorObject(ReadOfUndefined("dashFile")))
      case Some(sd) =>
        match sd.dash_file
        case Some(d) => Reply(200, Some(DashType), Text(d))
        case None => Reply(204, Some(DashType), NoBody)
  }

  /** `GET /api/manifest/dash/id/:videoId`. */
  function ServeDash(cfg: Config, up: Upstream, videoId: string, cache: Cache): (s: Served)
    ensures SameExcept(cache, s.cache, Key(videoId, Dash))
    ensures s.response.Reply?
    ensures s.response.status == 200 ==>
      && Key(videoId, Dash) in s.cache
      && s.cache[Key(videoId, Dash)].playability_status.status == OkStatus
      && s.cache[Key(videoId, Dash)].streaming_data.Some?
      && s.cache[Key(videoId, Dash)].streaming_data.value.dash_file.Some?
      && s.response.body == Text(s.cache[Key(videoId, Dash)].streaming_data.value.dash_file.value)
  {
    var res := Resolve(cfg, up, Dash, videoId, cache);
    Served(DashResponse(videoId, res.result), res.cache)
  }

  /**
   * As long as the dash namespace only holds manifest-bearing entries, which
   * every resolution keeps true, the dash route never answers with an empty
   * body: it serves a manifest or reports an error.
   */
  lemma DashServesManifest(cfg: Config, up: Upstream, videoId: string, cache: Cache)
    requires DashEntriesReady(cfg.filter, cache)
    ensures var s := ServeDash(cfg, up, videoId, cache);
      && DashEntriesReady(cfg.filter, s.cache)
      && s.response.status != 204
      && (s.response.status == 200 || s.response.status == 400)
  {
    ResolveKeepsDashReady(cfg, up, Dash, videoId, cache);
  }

  // ---------------------------------------------------------------------
  // /api/manifest/hls_variant/(.*)

  /**
   * `url.split('/id/').pop().split('/')[0]`: the text after the last
   * `/id/` marker (all of `url` without one), up to the next `/`.
   */
  function IdSegment(url: string): (seg: string)
    ensures !Includes(seg, "/")
    ensures seg <= LastPiece(url, IdMarker)
    ensures !Includes(url, IdMarker) ==> seg <= url
  {
    FirstPiece(LastPiece(url, IdMarker), "/")
  }

  /**
   * Where the segment sits in the request URL: right after an occurrence of
   * the marker, with no occurrence starting later, and ending at a `/` or
   * at the end of the URL.
   */
  lemma IdSegmentLocated(url: string)
    requires Includes(url, IdMarker)
    ensures var seg := IdSegment(url);
      var p := |url| - |LastPiece(url, IdMarker)|;
      && p >= |IdMarker|
      && OccursAt(url, IdMarker, p - |IdMarker|)
      && (forall j :: p <= j ==> !OccursAt(url, IdMarker, j))
      && p + |seg| <= |url| && url[p..p + |seg|] == seg
      && (p + |seg| == |url| || url[p + |seg|] == '/')
  {
    var last := LastPiece(url, IdMarker);
    var p := |url| - |last|;
    MarkerBeforeSegment(url, last, p);
    SegmentAfterMarker(url, last, p);
  }

  /** The last piece of the marker split is preceded by a marker and has none after it. */
  lemma MarkerBeforeSegment(url: string, last: string, p: int)
    requires Includes(url, IdMarker)
    requires last == LastPiece(url, IdMarker) && p == |url| - |last|
    ensures p >= |IdMarker| && OccursAt(url, IdMarker, p - |IdMarker|)
    ensures forall j :: p <= j ==> !OccursAt(url, IdMarker, j)
  {
  }

  /** The segment sits at the start of the last piece and ends at a `/` or at the end. */
  lemma SegmentAfterMarker(url: string, last: string, p: int)
    requires last == LastPiece(url, IdMarker) && p == |url| - |last|
    ensures var seg := IdSegment(url);
      && 0 <= p && p + |seg| <= |url| && url[p..p + |seg|] == seg
      && (p + |seg| == |url| || url[p + |seg|] == '/')
  {
    assert last == url[p..];
    FirstPieceOfSuffix(url, p);
  }

  /**
   * Overlapping markers: in `/id/id/x` the split consumes the `/id/` at 0,
   * so the segment is `id`, although another `/id/` starts at 3.
   */
  lemma OverlappingMarkers()
    ensures OccursAt("/id/id/x", IdMarker, 3)
    ensures IdSegment("/id/id/x") == "id"
  {
    var s := "/id/id/x";
    assert s[3..7] == IdMarker;
    assert s[0..4] == IdMarker;
    assert IndexFrom(s, IdMarker, 0) == Some(0);
    assert s[4..8][0] == 'i';
    assert IndexFrom(s, IdMarker, 5) == None;
    assert IndexFrom(s, IdMarker, 4) == None;
    assert SplitFrom(s, IdMarker, 4) == [s[4..]];
    assert Split(s, IdMarker) == [s[0..0]] + [s[4..]];
    LastPieceIsPop(s, IdMarker);
    var last := LastPiece(s, IdMarker);
    assert last == "id/x";
    SecondSlashPiece(last);
  }

  /** `"id/x".split("/")[0]` is `"id"`. */
  lemma SecondSlashPiece(t: string)
    requires t == "id/x"
    ensures FirstPiece(t, "/") == "id"
  {
    assert t[0..1][0] == 'i' && t[1..2][0] == 'd' && t[2..3] == "/";
    assert IndexFrom(t, "/", 2) == Some(2);
    assert IndexFrom(t, "/", 1) == Some(2);
    assert IndexFrom(t, "/", 0) == Some(2);
    assert Split(t, "/")[0] == t[0..2];
  }

  /** The first `/`-piece of a suffix, located in the whole text. */
  lemma FirstPieceOfSuffix(url: string, p: nat)
    requires p <= |url|
    ensures var seg := FirstPiece(url[p..], "/");
      && p + |seg| <= |url| && url[p..p + |seg|] == seg
      && (p + |seg| == |url| || url[p + |seg|] == '/')
  {
    var last := url[p..];
    var seg := FirstPiece(last, "/");
    assert url[p..p + |seg|] == last[..|seg|];
    if p + |seg| < |url| {
      assert seg != last;
      assert OccursAt(last, "/", |seg|);
      assert url[p + |seg|] == last[|seg|];
    }
  }

  /** How the video id comes out of the variant route's URL. */
  datatype IdOutcome =
    | IdFound(id: string)  // the first run of word characters in the segment
    | IdMissing            // an empty segment: 400 "Video ID not found."
    | IdUnmatched          // a segment without word characters: `null[0]` throws

  /** `segment.match(/\w+/m)[0]` for a non-empty segment; an empty one is no id. */
  function IdFromSegment(seg: string): (o: IdOutcome)
    ensures o.IdMissing? <==> seg == ""
    ensures o.IdUnmatched? <==> seg != "" && forall k :: 0 <= k < |seg| ==> !IsWordChar(seg[k])
    ensures o.IdFound? ==>
      && |o.id| > 0
      && (forall k :: 0 <= k < |o.id| ==> IsWordChar(o.id[k]))
      && Includes(seg, o.id)
    ensures o.IdFound? ==> MatchWord(seg).Some? && o.id == MatchWord(seg).value.text
  {
    if seg == "" then IdMissing
    else
      match MatchWord(seg)
      case None => IdUnmatched
      case Some(m) =>
        var i, w := m.index, m.text;
        assert seg == seg[..i] + w + seg[i + |w|..];
        IncludesMiddle(seg[..i], w, seg[i + |w|..]);
        IdFound(w)
  }

  /**
   * The variant route's id extraction. A segment is always a string, so
   * the query-parameter branch (taken only for a `null` segment) never is.
   */
  function ExtractVideoId(url: string): (o: IdOutcome)
    ensures var seg := IdSegment(url);
      && (o.IdMissing? <==> seg == "")
      && (o.IdUnmatched? <==> seg != "" && forall k :: 0 <= k < |seg| ==> !IsWordChar(seg[k]))
      && (o.IdFound? ==>
            && |o.id| > 0
            && (forall k :: 0 <= k < |o.id| ==> IsWordChar(o.id[k]))
            && Includes(seg, o.id))
    ensures o.IdFound? ==> MatchWord(IdSegment(url)).Some? && o.id == MatchWord(IdSegment(url)).value.text
  {
    IdFromSegment(IdSegment(url))
  }

  /**
   * The origin address the variant route fetches: the path of the record's
   * `hls_manifest_url` on the origin host, or the error that stops it.
   */
  function VariantTarget(videoId: string, resolved: Result<VideoInfo, string>): (r: Result<string, string>)
    ensures r.Ok? <==>
      && resolved.Ok? && Playable(resolved.value)
      && resolved.value.streaming_data.Some?
      && resolved.value.streaming_data.value.hls_manifest_url.Some?
      && ParseUrl(resolved.value.streaming_data.value.hls_manifest_url.value).Some?
    ensures r.Ok? ==>
      ParseUrl(r.value) == Some(Url("https", OriginHost,
        ParseUrl(resolved.value.streaming_data.value.hls_manifest_url.value).value.path, ""))
    ensures resolved.Err? ==> r == Err(resolved.error)
    ensures resolved.Ok? && !Playable(resolved.value) ==>
      r == Err(CantPlayMessage(videoId, resolved.value.playability_status.reason))
  {
    match CheckPlayable(videoId, resolved)
    case Err(m) => Err(m)
    case Ok(info) =>
      match info.streaming_data
      case None => Err(ReadOfUndefined("hls_manifest_url"))
      case Some(sd) =>
        match sd.hls_manifest_url
        case None => Err(InvalidUrl)
        case Some(h) =>
          match ParseUrl(h)
          case None => Err(InvalidUrl)
          case Some(u) =>
            OriginTargetParses(u);
            Ok(Origin + u.path)
  }

  lemma OriginHostValid()
    ensures ValidHost(OriginHost)
  {
    forall k | 0 <= k < |OriginHost| ensures !EndsHost(OriginHost[k]) {
      assert OriginHost[k] in "w.youtbecm";
    }
  }

  lemma OriginSpelled()
    ensures Origin == "https" + "://" + OriginHost
  {
  }

  /** The origin address built from a parsed URL's path parses back to that path. */
  lemma OriginTargetParses(u: Url)
    requires WellFormed(u)
    ensures ParseUrl(Origin + u.path) == Some(Url("https", OriginHost, u.path, ""))
  {
    var target := Url("https", OriginHost, u.path, "");
    OriginHostValid();
    assert WellFormed(target) by {
      assert forall k :: 0 <= k < |target.scheme| ==> target.scheme[k] in "hstp";
    }
    assert Serialize(target) == Origin + u.path by {
      OriginSpelled();
    }
    ParseSerialize(target);
  }

  /** What the HTTP client hands back: a failure, or a status and the body text. */
  datatype Fetch = FetchFailed(message: string) | Fetched(statusCode: nat, text: string)

  /**
   * The two playlist routes' answer for a fetched document: a 200 is served
   * as text with `pat` rewritten to `hostname`; any other status is mirrored
   * with the upstream body stream.
   */
  function Mirror(hostname: string, pat: string, statusCode: nat, text: string): (r: Response)
    requires |pat| > 0
    ensures r.Reply? && r.status == statusCode && r.contentType == Some(HlsType)
    ensures statusCode == 200 ==>
      && r.body.Text?
      && Join(Split(text, pat), pat) == text
      && r.body.text == Join(Split(text, pat), hostname)
    ensures statusCode == 200 && !Includes(text, pat) ==> r.body == Text(text)
    ensures statusCode != 200 ==> r.body == UpstreamStream
  {
    RewriteCharacterisation(text, pat, hostname);
    assert !Includes(text, pat) ==> ReplaceAll(text, pat, hostname) == text by {
      if !Includes(text, pat) {
        ReplaceAllAbsent(text, pat, hostname);
      }
    }
    if statusCode == 200 then Reply(200, Some(HlsType), Text(ReplaceAll(text, pat, hostname)))
    else Reply(statusCode, Some(HlsType), UpstreamStream)
  }

  /** The variant route's answer once the id is known and resolved. */
  function VariantResponse(hostname: string, videoId: string, resolved: Result<VideoInfo, string>,
                           fetch: string -> Fetch): (r: Response)
    ensures r.Reply? && r.contentType == Some(HlsType)
    ensures r.body.ErrorObject? ==> r.status == 400
    ensures VariantTarget(videoId, resolved).Err? ==>
      r == Reply(400, Some(HlsType), ErrorObject(VariantTarget(videoId, resolved).error))
    ensures VariantTarget(videoId, resolved).Ok? && fetch(VariantTarget(videoId, resolved).value).Fetched? ==>
      var doc := fetch(VariantTarget(videoId, resolved).value);
      && r.status == doc.statusCode
      && (doc.statusCode == 200 ==> r.body == Text(Join(Split(doc.text, OriginHost), hostname)))
    ensures VariantTarget(videoId, resolved).Ok? && fetch(VariantTarget(videoId, resolved).value).FetchFailed? ==>
      r == Reply(400, Some(HlsType), ErrorObject(fetch(VariantTarget(videoId, resolved).value).message))
  {
    match VariantTarget(videoId, resolved)
    case Err(m) => Reply(400, Some(HlsType), ErrorObject(m))
    case Ok(target) =>
      match fetch(target)
      case FetchFailed(m) => Reply(400, Some(HlsType), ErrorObject(m))
      case Fetched(code, text) => Mirror(hostname, OriginHost, code, text)
  }

  /** `GET /api/manifest/hls_variant/(.*)`; `fetch` is the HTTP client. */
  function ServeHlsVariant(cfg: Config, up: Upstream, url: string, cache: Cache, fetch: string -> Fetch): (s: Served)
    ensures !ExtractVideoId(url).IdFound? ==> s.cache == cache
    ensures ExtractVideoId(url).IdFound? ==> SameExcept(cache, s.cache, Key(ExtractVideoId(url).id, Latest))
    ensures s.response.Crash? <==> ExtractVideoId(url).IdUnmatched?
    ensures ExtractVideoId(url).IdMissing? ==> s.response == Reply(400, Some(HlsType), Text(IdNotFound))
    ensures s.response.Reply? ==> s.response.contentType == Some(HlsType)
    ensures s.response.Reply? && s.response.body.ErrorObject? ==> s.response.status == 400
  {
    match ExtractVideoId(url)
    case IdMissing => Served(Reply(400, Some(HlsType), Text(IdNotFound)), cache)
    case IdUnmatched => Served(Crash(ReadOfNull("0")), cache)
    case IdFound(id) =>
      var res := Resolve(cfg, up, Latest, id, cache);
      Served(VariantResponse(cfg.hostname, id, res.result, fetch), res.cache)
  }

  /**
   * When the variant route gets a 200 from the origin, the client gets the
   * fetched document with every origin host name replaced by the proxy's.
   */
  lemma VariantServesRewrittenPlaylist(cfg: Config, up: Upstream, url: string, cache: Cache,
                                       fetch: string -> Fetch)
    requires ExtractVideoId(url).IdFound?
    requires var id := ExtractVideoId(url).id;
      var t := VariantTarget(id, Resolve(cfg, up, Latest, id, cache).result);
      t.Ok? && fetch(t.value).Fetched? && fetch(t.value).statusCode == 200
    ensures var id := ExtractVideoId(url).id;
      var t := VariantTarget(id, Resolve(cfg, up, Latest, id, cache).result);
      var doc := fetch(t.value).text;
      ServeHlsVariant(cfg, up, url, cache, fetch).response
        == Reply(200, Some(HlsType), Text(Join(Split(doc, OriginHost), cfg.hostname)))
  {
  }

  // ---------------------------------------------------------------------
  // /api/manifest/hls_playlist/(.*)

  /** `'https://www.youtube.com' + url.split('?')[0]`: the request path on the origin. */
  function PlaylistTarget(url: string): (t: string)
    ensures |t| >= |Origin| && t[..|Origin|] == Origin
    ensures var path := t[|Origin|..];
      && path <= url
      && !Includes(path, "?")
      && (path == url || url[|path|] == '?')
  {
    var path := FirstPiece(url, "?");
    assert path != url ==> OccursAt(url, "?", |path|);
    assert (Origin + path)[|Origin|..] == path;
    Origin + path
  }

  /**
   * `GET /api/manifest/hls_playlist/(.*)`: a pass-through without cache.
   * A failed fetch is outside any `try`, so it is a crash.
   */
  function ServeHlsPlaylist(hostname: string, url: string, fetch: string -> Fetch): (r: Response)
    ensures r.Crash? <==> fetch(PlaylistTarget(url)).FetchFailed?
    ensures r.Reply? ==>
      && r.status == fetch(PlaylistTarget(url)).statusCode
      && r.contentType == Some(HlsType)
    ensures r.Reply? && r.status == 200 ==>
      r.body == Text(Join(Split(fetch(PlaylistTarget(url)).text, PlaylistPattern), hostname))
  {
    match fetch(PlaylistTarget(url))
    case FetchFailed(m) => Crash(m)
    case Fetched(code, text) => Mirror(hostname, PlaylistPattern, code, text)
  }

  /**
   * The playlist route rewrites the bare domain, so an origin host name in
   * the document keeps its `www.` label in front of the proxy's host name,
   * where the variant route replaces it whole.
   */
  lemma PlaylistRewriteKeepsWww(hostname: string)
    ensures ReplaceAll(OriginHost, PlaylistPattern, hostname) == "www." + hostname
    ensures ReplaceAll(OriginHost, OriginHost, hostname) == hostname
  {
    var s := OriginHost;
    forall j | 0 <= j < 4
      ensures !OccursAt(s, PlaylistPattern, j)
    {
      assert s[j] != 'y';
    }
    ReplaceAllCopiesPrefix(s, PlaylistPattern, hostname, 4);
    OriginHostParts();
    ReplaceAllWhole(PlaylistPattern, hostname);
    ReplaceAllWhole(OriginHost, hostname);
  }

  lemma OriginHostParts()
    ensures OriginHost[..4] == "www." && OriginHost[4..] == PlaylistPattern
  {
  }

  // ---------------------------------------------------------------------
  // /latest_version?id=&itag=

  /**
   * `format.itag == itagId` with a string on the right: the query is
   * converted to a number; decimal spellings are the ones modelled.
   */
  predicate ItagMatches(f: Format, itagQuery: string)
    ensures ItagMatches(f, itagQuery) ==>
      0 <= f.itag && |itagQuery| > 0 && forall k :: 0 <= k < |itagQuery| ==> IsDigit(itagQuery[k])
    ensures 0 <= f.itag && itagQuery == DecimalText(f.itag) ==> ItagMatches(f, itagQuery)
  {
    var v := DecimalValue(itagQuery);
    if 0 <= f.itag then
      DecimalRoundTrip(f.itag);
      v.Some? && v.value == f.itag
    else v.Some? && v.value == f.itag
  }

  /** `formats.filter(i => i.itag == itagId)`. */
  function MatchingFormats(fs: seq<Format>, itagQuery: string): (r: seq<Format>)
    ensures |r| <= |fs|
    ensures forall k :: 0 <= k < |r| ==> ItagMatches(r[k], itagQuery) && r[k] in fs
    ensures |r| == 0 <==> forall k :: 0 <= k < |fs| ==> !ItagMatches(fs[k], itagQuery)
    decreases |fs|
  {
    if |fs| == 0 then []
    else
      var rest := MatchingFormats(fs[1..], itagQuery);
      assert forall k :: 1 <= k < |fs| ==> fs[k] == fs[1..][k - 1];
      if ItagMatches(fs[0], itagQuery) then [fs[0]] + rest else rest
  }

  /** A reference reading of the selection: the index of the first match at or after `k`. */
  function FirstMatchFrom(fs: seq<Format>, itagQuery: string, k: nat): (r: Option<nat>)
    requires k <= |fs|
    ensures r.Some? ==> k <= r.value < |fs| && ItagMatches(fs[r.value], itagQuery)
    ensures r.Some? ==> forall j :: k <= j < r.value ==> !ItagMatches(fs[j], itagQuery)
    ensures r.None? ==> forall j :: k <= j < |fs| ==> !ItagMatches(fs[j], itagQuery)
    decreases |fs| - k
  {
    if k == |fs| then None
    else if ItagMatches(fs[k], itagQuery) then Some(k)
    else FirstMatchFrom(fs, itagQuery, k + 1)
  }

  /** `selectedItagFormat[0]`, absent when the filter finds nothing. */
  function SelectFormat(fs: seq<Format>, itagQuery: string): (r: Option<Format>)
    ensures r.None? <==> forall k :: 0 <= k < |fs| ==> !ItagMatches(fs[k], itagQuery)
    ensures r.Some? ==> r.value in fs && ItagMatches(r.value, itagQuery)
  {
    var m := MatchingFormats(fs, itagQuery);
    if |m| == 0 then None else Some(m[0])
  }

  lemma {:induction false} MatchingFrom(fs: seq<Format>, itagQuery: string, k: nat)
    requires k <= |fs|
    ensures var m := MatchingFormats(fs[k..], itagQuery);
      var i := FirstMatchFrom(fs, itagQuery, k);
      && (|m| == 0 <==> i.None?)
      && (|m| > 0 ==> m[0] == fs[i.value])
    decreases |fs| - k
  {
    if k < |fs| {
      assert fs[k..][0] == fs[k];
      assert fs[k..][1..] == fs[k + 1..];
      if !ItagMatches(fs[k], itagQuery) {
        MatchingFrom(fs, itagQuery, k + 1);
      }
    }
  }

  /** Filtering then taking the head selects the first matching entry. */
  lemma SelectionIsFirstMatch(fs: seq<Format>, itagQuery: string)
    ensures SelectFormat(fs, itagQuery) ==
      match FirstMatchFrom(fs, itagQuery, 0)
      case None => None
      case Some(i) => Some(fs[i])
  {
    MatchingFrom(fs, itagQuery, 0);
    assert fs[0..] == fs;
  }

  /** With distinct itags in the list, the entry carrying the requested itag is the one selected. */
  lemma UniqueItagSelection(fs: seq<Format>, itagQuery: string, i: nat)
    requires i < |fs| && ItagMatches(fs[i], itagQuery)
    requires forall j, k :: 0 <= j < |fs| && 0 <= k < |fs| && fs[j].itag == fs[k].itag ==> j == k
    ensures SelectFormat(fs, itagQuery) == Some(fs[i])
  {
    SelectionIsFirstMatch(fs, itagQuery);
    var first := FirstMatchFrom(fs, itagQuery, 0);
    assert first.Some?;
    assert fs[first.value].itag == fs[i].itag;
  }

  /** The entry the route picks from `formats.concat(adaptive_formats)`, if the record has one. */
  function Selected(resolved: Result<VideoInfo, string>, itagQuery: string): (r: Option<Format>)
    ensures r.Some? ==> resolved.Ok? && resolved.value.streaming_data.Some?
    ensures r.Some? ==> var sd := resolved.value.streaming_data.value;
      r.value in sd.formats + sd.adaptive_formats && ItagMatches(r.value, itagQuery)
  {
    if resolved.Ok? && resolved.value.streaming_data.Some? then
      var sd := resolved.value.streaming_data.value;
      SelectFormat(sd.formats + sd.adaptive_formats, itagQuery)
    else None
  }

  /** The route's answer once both query parameters are present. */
  function LatestResponse(hostname: string, videoId: string, itagQuery: string,
                          resolved: Result<VideoInfo, string>): (r: Response)
    requires ValidHost(hostname)
    ensures r.Reply? ==> r.status == 400 && r.contentType == None
    ensures !r.Crash?
    ensures r.Redirect? <==>
      && resolved.Ok? && Playable(resolved.value)
      && Selected(resolved, itagQuery).Some?
      && Truthy(Selected(resolved, itagQuery).value.url)
      && ParseUrl(Selected(resolved, itagQuery).value.url.value).Some?
    ensures r.Redirect? ==>
      var u := ParseUrl(Selected(resolved, itagQuery).value.url.value).value;
      ParseUrl(r.location) == Some(Url(u.scheme, hostname, u.path, u.tail))
    ensures (&& resolved.Ok? && Playable(resolved.value) && resolved.value.streaming_data.Some?
             && Selected(resolved, itagQuery).None?) ==> r == Reply(400, None, Text(NoItag))
    ensures resolved.Err? ==> r == Reply(400, None, ErrorObject(resolved.error))
    ensures resolved.Ok? && !Playable(resolved.value) ==>
      r == Reply(400, None, ErrorObject(CantPlayMessage(videoId, resolved.value.playability_status.reason)))
    ensures resolved.Ok? && Playable(resolved.value) && resolved.value.streaming_data.None? ==>
      r == Reply(400, None, ErrorObject(ReadOfUndefined("formats")))
    ensures (&& resolved.Ok? && Playable(resolved.value)
             && Selected(resolved, itagQuery).Some? && !Truthy(Selected(resolved, itagQuery).value.url)) ==>
      r == Reply(400, None, ErrorObject(NoUrlMessage(videoId)))
    ensures (&& resolved.Ok? && Playable(resolved.value)
             && Selected(resolved, itagQuery).Some? && Truthy(Selected(resolved, itagQuery).value.url)
             && ParseUrl(Selected(resolved, itagQuery).value.url.value).None?) ==>
      r == Reply(400, None, ErrorObject(InvalidUrl))
  {
    match CheckPlayable(videoId, resolved)
    case Err(m) => Reply(400, None, ErrorObject(m))
    case Ok(info) =>
      match info.streaming_data
      case None => Reply(400, None, ErrorObject(ReadOfUndefined("formats")))
      case Some(sd) =>
        match SelectFormat(sd.formats + sd.adaptive_formats, itagQuery)
        case None => Reply(400, None, Text(NoItag))
        case Some(f) =>
          if !Truthy(f.url) then Reply(400, None, ErrorObject(NoUrlMessage(videoId)))
          else
            match ParseUrl(f.url.value)
            case None => Reply(400, None, ErrorObject(InvalidUrl))
            case Some(u) =>
              RewrittenHostParses(f.url.value, hostname);
              Redirect(Serialize(WithHost(u, hostname)))
  }

  /**
   * `GET /latest_version?id=&itag=`. A missing or empty parameter is
   * answered with the instructions, without touching the cache.
   */
  function ServeLatestVersion(cfg: Config, up: Upstream, idQuery: Option<string>, itagQuery: Option<string>,
                              cache: Cache): (s: Served)
    requires ValidHost(cfg.hostname)
    ensures !(Truthy(idQuery) && Truthy(itagQuery)) ==> s == Served(Reply(200, None, Text(Instructions)), cache)
    ensures Truthy(idQuery) && Truthy(itagQuery) ==> SameExcept(cache, s.cache, Key(idQuery.value, Latest))
    ensures s.response.Redirect? ==>
      && ParseUrl(s.response.location).Some?
      && ParseUrl(s.response.location).value.host == cfg.hostname
    ensures s.response.Redirect? ==> Key(idQuery.value, Latest) in s.cache
  {
    if !Truthy(idQuery) || !Truthy(itagQuery) then Served(Reply(200, None, Text(Instructions)), cache)
    else
      var res := Resolve(cfg, up, Latest, idQuery.value, cache);
      Served(LatestResponse(cfg.hostname, idQuery.value, itagQuery.value, res.result), res.cache)
  }
}

=== FILE: js_text.dfy ===
/**
 * The JavaScript string operations the proxy relies on, with their ECMAScript
 * semantics: `indexOf`/`includes`, `split` with a non-empty separator,
 * `join`, `replaceAll` with a string pattern and a replacement taken
 * literally (one without `$` substitution patterns), the `/\w+/` match, and the
 * numeric coercion `==` applies to a decimal query string.
 */
module JsText {
  import opened Outcomes

  /** `pat` occurs in `s` starting at index `i`. */
  ghost predicate OccursAt(s: string, pat: string, i: int) {
    0 <= i && i + |pat| <= |s| && s[i..i + |pat|] == pat
  }

  /** An occurrence in a suffix is an occurrence in the whole text, shifted. */
  lemma OccursInSuffix(s: string, pat: string, k: nat, j: nat)
    requires k <= |s|
    ensures OccursAt(s[k..], pat, j) <==> OccursAt(s, pat, k + j)
  {
    if j + |pat| <= |s| - k {
      assert s[k..][j..j + |pat|] == s[k + j..k + j + |pat|];
    }
  }

  /** The first index at or after `k` at which `pat` occurs, if any. */
  function IndexFrom(s: string, pat: string, k: nat): (r: Option<nat>)
    ensures r.Some? ==> k <= r.value && OccursAt(s, pat, r.value)
    ensures r.None? ==> forall j :: k <= j ==> !OccursAt(s, pat, j)
    decreases |s| - k
  {
    if |s| < k + |pat| then None
    else if s[k..k + |pat|] == pat then Some(k)
    else IndexFrom(s, pat, k + 1)
  }

  /** The occurrence `IndexFrom` finds is the first one at or after `k`. */
  lemma {:induction false} IndexFromIsFirst(s: string, pat: string, k: nat)
    ensures var r := IndexFrom(s, pat, k);
      r.Some? ==> forall j :: k <= j < r.value ==> !OccursAt(s, pat, j)
    decreases |s| - k
  {
    if k + |pat| <= |s| && s[k..k + |pat|] != pat {
      IndexFromIsFirst(s, pat, k + 1);
    }
  }

  /** `s.indexOf(pat)`: the first index at which `pat` occurs, if any. */
  function IndexOf(s: string, pat: string): (r: Option<nat>)
    ensures r.Some? ==> OccursAt(s, pat, r.value)
    ensures r.Some? ==> forall j :: 0 <= j < r.value ==> !OccursAt(s, pat, j)
    ensures r.None? ==> forall j :: !OccursAt(s, pat, j)
  {
    IndexFromIsFirst(s, pat, 0);
    IndexFrom(s, pat, 0)
  }

  /** `s.includes(pat)`. */
  predicate Includes(s: string, pat: string) {
    IndexOf(s, pat).Some?
  }

  /** A pattern placed inside a concatenation is included in it. */
  lemma IncludesMiddle(a: string, pat: string, b: string)
    ensures Includes(a + pat + b, pat)
  {
    var s := a + pat + b;
    assert s[|a|..|a| + |pat|] == pat;
    assert OccursAt(s, pat, |a|);
  }

  /** A one-character pattern is included exactly when the character occurs. */
  lemma IncludesChar(s: string, c: char)
    ensures Includes(s, [c]) <==> c in s
  {
    if c in s {
      var j :| 0 <= j < |s| && s[j] == c;
      assert s[j..j + 1] == [c];
      assert OccursAt(s, [c], j);
    }
    if Includes(s, [c]) {
      var j := IndexOf(s, [c]).value;
      assert s[j] == s[j..j + 1][0];
    }
  }

  /** A slice in which no occurrence of `pat` starts does not include `pat`. */
  lemma SliceFree(s: string, pat: string, a: nat, b: nat)
    requires a <= b <= |s|
    requires forall j :: a <= j && j + |pat| <= b ==> !OccursAt(s, pat, j)
    ensures !Includes(s[a..b], pat)
  {
    var t := s[a..b];
    if Includes(t, pat) {
      var j := IndexOf(t, pat).value;
      assert OccursAt(t, pat, j);
      assert j + |pat| <= b - a;
      forall m | 0 <= m < |pat|
        ensures s[a + j + m] == pat[m]
      {
        assert t[j..j + |pat|][m] == t[j + m];
      }
      assert s[a + j..a + j + |pat|] == pat;
      assert OccursAt(s, pat, a + j);
    }
  }

  /** The pieces `s.slice(k).split(sep)` yields, for a non-empty separator. */
  function SplitFrom(s: string, sep: string, k: nat): (r: seq<string>)
    requires |sep| > 0 && k <= |s|
    ensures |r| >= 1
    decreases |s| - k
  {
    match IndexFrom(s, sep, k)
    case None => [s[k..]]
    case Some(i) => [s[k..i]] + SplitFrom(s, sep, i + |sep|)
  }

  /**
   * `s.split(sep)` for a non-empty separator: the pieces between the
   * non-overlapping occurrences of `sep`, found left to right.
   */
  function Split(s: string, sep: string): (r: seq<string>)
    requires |sep| > 0
    ensures |r| >= 1
    ensures Join(r, sep) == s
  {
    JoinSplitFrom(s, sep, 0);
    assert s[0..] == s;
    SplitFrom(s, sep, 0)
  }

  /** `parts.join(sep)`. */
  function Join(parts: seq<string>, sep: string): string
    decreases |parts|
  {
    if |parts| == 0 then ""
    else if |parts| == 1 then parts[0]
    else parts[0] + sep + Join(parts[1..], sep)
  }

  lemma {:induction false} JoinSplitFrom(s: string, sep: string, k: nat)
    requires |sep| > 0 && k <= |s|
    ensures Join(SplitFrom(s, sep, k), sep) == s[k..]
    decreases |s| - k
  {
    if IndexFrom(s, sep, k).Some? {
      var i := IndexFrom(s, sep, k).value;
      var next := i + |sep|;
      JoinSplitFrom(s, sep, next);
      JoinSplitStep(s, sep, k, i, next);
    }
  }

  /** Joining puts the separator back where the split took it out. */
  lemma JoinSplitStep(s: string, sep: string, k: nat, i: nat, next: nat)
    requires |sep| > 0 && k <= |s| && IndexFrom(s, sep, k) == Some(i) && next == i + |sep|
    requires Join(SplitFrom(s, sep, next), sep) == s[next..]
    ensures Join(SplitFrom(s, sep, k), sep) == s[k..]
  {
    SplitFromStep(s, sep, k, i, next);
    JoinCons(s[k..i], SplitFrom(s, sep, next), sep);
    OccurrenceSlice(s, sep, i, next);
    SliceThree(s, k, i, next);
  }

  /** An occurrence, as a slice. */
  lemma OccurrenceSlice(s: string, pat: string, i: nat, next: nat)
    requires OccursAt(s, pat, i) && next == i + |pat|
    ensures next <= |s| && s[i..next] == pat
  {
  }

  /** A suffix is the concatenation of its consecutive slices. */
  lemma SliceThree(s: string, a: nat, b: nat, c: nat)
    requires a <= b <= c <= |s|
    ensures s[a..] == s[a..b] + s[b..c] + s[c..]
  {
  }

  /** Joining a non-empty list after one more piece puts a separator between them. */
  lemma JoinCons(x: string, t: seq<string>, sep: string)
    requires |t| > 0
    ensures Join([x] + t, sep) == x + sep + Join(t, sep)
  {
    assert ([x] + t)[1..] == t;
  }

  /** Joining the pieces of a split with the separator gives back the text. */
  lemma JoinSplit(s: string, sep: string)
    requires |sep| > 0
    ensures Join(Split(s, sep), sep) == s
  {
    JoinSplitFrom(s, sep, 0);
  }

  lemma {:induction false} SplitFromPiecesFree(s: string, sep: string, k: nat)
    requires |sep| > 0 && k <= |s|
    ensures forall m :: 0 <= m < |SplitFrom(s, sep, k)| ==> !Includes(SplitFrom(s, sep, k)[m], sep)
    decreases |s| - k
  {
    var found := IndexFrom(s, sep, k);
    if found.None? {
      SliceFree(s, sep, k, |s|);
      assert s[k..|s|] == s[k..];
    } else {
      var i := found.value;
      var next := i + |sep|;
      SplitFromPiecesFree(s, sep, next);
      IndexFromIsFirst(s, sep, k);
      SliceFree(s, sep, k, i);
      SplitFromStep(s, sep, k, i, next);
    }
  }

  /** No piece of a split contains the separator. */
  lemma SplitPiecesFree(s: string, sep: string)
    requires |sep| > 0
    ensures forall m :: 0 <= m < |Split(s, sep)| ==> !Includes(Split(s, sep)[m], sep)
  {
    SplitFromPiecesFree(s, sep, 0);
  }

  /**
   * `s.split(sep)[0]`: the text before the first occurrence of `sep`,
   * or all of `s` when `sep` does not occur.
   */
  function FirstPiece(s: string, sep: string): (r: string)
    requires |sep| > 0
    ensures r <= s
    ensures !Includes(r, sep)
    ensures r == s || OccursAt(s, sep, |r|)
    ensures !Includes(s, sep) ==> r == s
  {
    SplitPiecesFree(s, sep);
    Split(s, sep)[0]
  }

  /** Where the last piece of `s.slice(k).split(sep)` starts in `s`. */
  function LastStart(s: string, sep: string, k: nat): (p: nat)
    requires |sep| > 0 && k <= |s|
    ensures k <= p <= |s|
    ensures forall j :: p <= j ==> !OccursAt(s, sep, j)
    ensures IndexFrom(s, sep, k).None? ==> p == k
    decreases |s| - k
  {
    match IndexFrom(s, sep, k)
    case None => k
    case Some(i) => LastStart(s, sep, i + |sep|)
  }

  /** When `sep` occurs from `k` on, the last piece starts right after an occurrence. */
  lemma {:induction false} LastStartFollowsSep(s: string, sep: string, k: nat)
    requires |sep| > 0 && k <= |s| && IndexFrom(s, sep, k).Some?
    ensures var p := LastStart(s, sep, k);
      k + |sep| <= p && OccursAt(s, sep, p - |sep|)
    decreases |s| - k
  {
    var i := IndexFrom(s, sep, k).value;
    var next := i + |sep|;
    if IndexFrom(s, sep, next).Some? {
      LastStartFollowsSep(s, sep, next);
    }
    FollowsStep(s, sep, k, i, next);
  }

  /** The occurrence before the last piece carries over one step of `SplitFrom`. */
  lemma FollowsStep(s: string, sep: string, k: nat, i: nat, next: nat)
    requires |sep| > 0 && k <= |s| && IndexFrom(s, sep, k) == Some(i) && next == i + |sep|
    requires IndexFrom(s, sep, next).Some? ==>
      var p := LastStart(s, sep, next);
      next + |sep| <= p && OccursAt(s, sep, p - |sep|)
    ensures var p := LastStart(s, sep, k);
      k + |sep| <= p && OccursAt(s, sep, p - |sep|)
  {
    SplitFromStep(s, sep, k, i, next);
    if IndexFrom(s, sep, next).None? {
      assert LastStart(s, sep, k) - |sep| == i;
    }
  }

  /**
   * `s.split(sep).pop()`: the last piece of the split. It is a suffix of `s`
   * free of `sep`, and when `sep` occurs in `s` it is preceded by `sep`.
   */
  function LastPiece(s: string, sep: string): (r: string)
    requires |sep| > 0
    ensures |r| <= |s| && r == s[|s| - |r|..]
    ensures !Includes(r, sep)
    ensures forall j :: |s| - |r| <= j ==> !OccursAt(s, sep, j)
    ensures Includes(s, sep) ==> OccursAt(s, sep, |s| - |r| - |sep|)
    ensures !Includes(s, sep) ==> r == s
  {
    var p := LastStart(s, sep, 0);
    LastSuffixFacts(s, sep, p);
    s[p..]
  }

  /** What the start of the last piece tells about the text. */
  lemma LastSuffixFacts(s: string, sep: string, p: nat)
    requires |sep| > 0 && p == LastStart(s, sep, 0)
    ensures p <= |s| && !Includes(s[p..], sep)
    ensures Includes(s, sep) ==> |sep| <= p && OccursAt(s, sep, p - |sep|)
    ensures !Includes(s, sep) ==> p == 0
  {
    SliceFree(s, sep, p, |s|);
    assert s[p..|s|] == s[p..];
    assert IndexOf(s, sep) == IndexFrom(s, sep, 0);
    if Includes(s, sep) {
      LastStartFollowsSep(s, sep, 0);
    }
  }

  lemma {:induction false} LastStartIsPop(s: string, sep: string, k: nat)
    requires |sep| > 0 && k <= |s|
    ensures s[LastStart(s, sep, k)..] == SplitFrom(s, sep, k)[|SplitFrom(s, sep, k)| - 1]
    decreases |s| - k
  {
    if IndexFrom(s, sep, k).Some? {
      var i := IndexFrom(s, sep, k).value;
      var next := i + |sep|;
      LastStartIsPop(s, sep, next);
      PopStep(s, sep, k, i, next);
    }
  }

  /** The last piece and its start carry over one step of `SplitFrom`. */
  lemma PopStep(s: string, sep: string, k: nat, i: nat, next: nat)
    requires |sep| > 0 && k <= |s| && IndexFrom(s, sep, k) == Some(i) && next == i + |sep|
    requires s[LastStart(s, sep, next)..] == SplitFrom(s, sep, next)[|SplitFrom(s, sep, next)| - 1]
    ensures s[LastStart(s, sep, k)..] == SplitFrom(s, sep, k)[|SplitFrom(s, sep, k)| - 1]
  {
    SplitFromStep(s, sep, k, i, next);
    LastOfCons(s[k..i], SplitFrom(s, sep, next), s[LastStart(s, sep, next)..]);
  }

  /** One step of `SplitFrom` past an occurrence. */
  lemma SplitFromStep(s: string, sep: string, k: nat, i: nat, next: nat)
    requires |sep| > 0 && k <= |s| && IndexFrom(s, sep, k) == Some(i) && next == i + |sep|
    ensures SplitFrom(s, sep, k) == [s[k..i]] + SplitFrom(s, sep, next)
    ensures LastStart(s, sep, k) == LastStart(s, sep, next)
  {
  }

  lemma LastOfCons(x: string, t: seq<string>, y: string)
    requires |t| > 0 && y == t[|t| - 1]
    ensures y == ([x] + t)[|[x] + t| - 1]
  {
  }

  /** `LastPiece` is the piece `pop()` removes from the array `split` builds. */
  lemma LastPieceIsPop(s: string, sep: string)
    requires |sep| > 0
    ensures LastPiece(s, sep) == Split(s, sep)[|Split(s, sep)| - 1]
  {
    LastPieceStart(s, sep);
    SplitLastStart(s, sep);
  }

  lemma SplitLastStart(s: string, sep: string)
    requires |sep| > 0
    ensures s[LastStart(s, sep, 0)..] == Split(s, sep)[|Split(s, sep)| - 1]
  {
    assert Split(s, sep) == SplitFrom(s, sep, 0);
    LastStartIsPop(s, sep, 0);
  }

  lemma LastPieceStart(s: string, sep: string)
    requires |sep| > 0
    ensures LastPiece(s, sep) == s[LastStart(s, sep, 0)..]
  {
  }

  /**
   * `s.replaceAll(pat, rep)` for a non-empty string pattern: scanning left to
   * right, every occurrence of `pat` not overlapping an earlier replaced one
   * becomes `rep`.
   */
  function ReplaceAll(s: string, pat: string, rep: string): (r: string)
    requires |pat| > 0
    ensures !Includes(s, pat) ==> r == s
    decreases |s|
  {
    if |s| < |pat| then s
    else if s[..|pat|] == pat then
      assert OccursAt(s, pat, 0);
      rep + ReplaceAll(s[|pat|..], pat, rep)
    else
      IncludesInSuffix(s, pat, 1);
      [s[0]] + ReplaceAll(s[1..], pat, rep)
  }

  /** A text that includes the pattern in a suffix includes it. */
  lemma IncludesInSuffix(s: string, pat: string, k: nat)
    requires k <= |s|
    ensures Includes(s[k..], pat) ==> Includes(s, pat)
  {
    if Includes(s[k..], pat) {
      var j := IndexOf(s[k..], pat).value;
      OccursInSuffix(s, pat, k, j);
    }
  }

  /** A text that is exactly the pattern is replaced whole. */
  lemma ReplaceAllWhole(pat: string, rep: string)
    requires |pat| > 0
    ensures ReplaceAll(pat, pat, rep) == rep
  {
    assert pat[..|pat|] == pat;
    assert pat[|pat|..] == "";
    assert rep + "" == rep;
  }

  /** Text before the first occurrence is copied unchanged by `ReplaceAll`. */
  lemma {:induction false} ReplaceAllCopiesPrefix(t: string, pat: string, rep: string, n: nat)
    requires |pat| > 0 && n <= |t|
    requires forall j :: 0 <= j < n ==> !OccursAt(t, pat, j)
    ensures ReplaceAll(t, pat, rep) == t[..n] + ReplaceAll(t[n..], pat, rep)
    decreases n
  {
    if n == 0 {
      assert t[..0] + ReplaceAll(t[0..], pat, rep) == ReplaceAll(t, pat, rep);
    } else if |t| < |pat| {
      assert t[..n] + t[n..] == t;
    } else {
      var u := t[1..];
      var m := n - 1;
      forall j | 0 <= j < m
        ensures !OccursAt(u, pat, j)
      {
        OccursInSuffix(t, pat, 1, j);
      }
      ReplaceAllCopiesPrefix(u, pat, rep, m);
      CopyStep(t, pat, rep, n, u, m);
    }
  }

  /** Copying one more character in front of an already copied prefix. */
  lemma CopyStep(t: string, pat: string, rep: string, n: nat, u: string, m: nat)
    requires |pat| > 0 && 0 < n <= |t| && |pat| <= |t| && !OccursAt(t, pat, 0)
    requires u == t[1..] && m == n - 1
    requires ReplaceAll(u, pat, rep) == u[..m] + ReplaceAll(u[m..], pat, rep)
    ensures ReplaceAll(t, pat, rep) == t[..n] + ReplaceAll(t[n..], pat, rep)
  {
    var head := [t[0]];
    var rest := ReplaceAll(u[m..], pat, rep);
    calc {
      ReplaceAll(t, pat, rep);
      == { assert t[..|pat|] != pat; }
      head + ReplaceAll(u, pat, rep);
      head + (u[..m] + rest);
      == { ConcatAssoc(head, u[..m], rest); }
      head + u[..m] + rest;
      == { assert head + u[..m] == t[..n]; assert u[m..] == t[n..]; }
      t[..n] + ReplaceAll(t[n..], pat, rep);
    }
  }

  /** `ReplaceAll` of a suffix copies it up to position `n` of `s`, free of `pat`. */
  lemma ReplaceAllSuffixPrefix(s: string, pat: string, rep: string, k: nat, n: nat)
    requires |pat| > 0 && k <= n <= |s|
    requires forall j :: k <= j < n ==> !OccursAt(s, pat, j)
    ensures ReplaceAll(s[k..], pat, rep) == s[k..n] + ReplaceAll(s[n..], pat, rep)
  {
    var t := s[k..];
    forall j | 0 <= j < n - k
      ensures !OccursAt(t, pat, j)
    {
      OccursInSuffix(s, pat, k, j);
    }
    ReplaceAllCopiesPrefix(t, pat, rep, n - k);
    assert t[..n - k] == s[k..n];
    assert t[n - k..] == s[n..];
  }

  /** `ReplaceAll` of a suffix starting with `pat` begins with `rep`. */
  lemma ReplaceAllAtOccurrence(s: string, pat: string, rep: string, i: nat, next: nat)
    requires |pat| > 0 && OccursAt(s, pat, i) && next == i + |pat|
    ensures ReplaceAll(s[i..], pat, rep) == rep + ReplaceAll(s[next..], pat, rep)
  {
    var u := s[i..];
    assert u[..|pat|] == pat;
    assert u[|pat|..] == s[next..];
  }

  lemma {:induction false} ReplaceAllIsSplitJoinFrom(s: string, pat: string, rep: string, k: nat)
    requires |pat| > 0 && k <= |s|
    ensures ReplaceAll(s[k..], pat, rep) == Join(SplitFrom(s, pat, k), rep)
    decreases |s| - k
  {
    var found := IndexFrom(s, pat, k);
    if found.None? {
      ReplaceAllSuffixPrefix(s, pat, rep, k, |s|);
      assert s[k..|s|] == s[k..];
      assert s[|s|..] == "";
    } else {
      var i := found.value;
      var next := i + |pat|;
      ReplaceAllIsSplitJoinFrom(s, pat, rep, next);
      ReplaceAllStep(s, pat, rep, k, i, next);
    }
  }

  /** `ReplaceAll` copies up to the first occurrence and puts `rep` in its place. */
  lemma ReplaceAllStep(s: string, pat: string, rep: string, k: nat, i: nat, next: nat)
    requires |pat| > 0 && k <= |s| && IndexFrom(s, pat, k) == Some(i) && next == i + |pat|
    requires ReplaceAll(s[next..], pat, rep) == Join(SplitFrom(s, pat, next), rep)
    ensures ReplaceAll(s[k..], pat, rep) == Join(SplitFrom(s, pat, k), rep)
  {
    IndexFromIsFirst(s, pat, k);
    var rest := Join(SplitFrom(s, pat, next), rep);
    calc {
      ReplaceAll(s[k..], pat, rep);
      == { ReplaceAllSuffixPrefix(s, pat, rep, k, i); }
      s[k..i] + ReplaceAll(s[i..], pat, rep);
      == { ReplaceAllAtOccurrence(s, pat, rep, i, next); }
      s[k..i] + (rep + rest);
      == { ConcatAssoc(s[k..i], rep, rest); }
      s[k..i] + rep + rest;
      == { JoinCons(s[k..i], SplitFrom(s, pat, next), rep); }
      Join([s[k..i]] + SplitFrom(s, pat, next), rep);
      == { SplitFromStep(s, pat, k, i, next); }
      Join(SplitFrom(s, pat, k), rep);
    }
  }

  lemma ConcatAssoc(a: string, b: string, c: string)
    ensures a + (b + c) == a + b + c
  {
  }

  /**
   * `replaceAll` agrees with the split/join reading of it: the text is cut at
   * the occurrences of `pat` and glued back together with `rep`.
   */
  lemma ReplaceAllIsSplitJoin(s: string, pat: string, rep: string)
    requires |pat| > 0
    ensures ReplaceAll(s, pat, rep) == Join(Split(s, pat), rep)
  {
    ReplaceAllIsSplitJoinFrom(s, pat, rep, 0);
    assert s[0..] == s;
  }

  /**
   * What a host rewrite does to a document: the document is the pieces
   * between occurrences of `pat` joined by `pat`, no piece contains `pat`,
   * and the result is the same pieces joined by `rep`.
   */
  lemma RewriteCharacterisation(s: string, pat: string, rep: string)
    requires |pat| > 0
    ensures var pieces := Split(s, pat);
      && Join(pieces, pat) == s
      && (forall m :: 0 <= m < |pieces| ==> !Includes(pieces[m], pat))
      && ReplaceAll(s, pat, rep) == Join(pieces, rep)
  {
    JoinSplit(s, pat);
    SplitPiecesFree(s, pat);
    ReplaceAllIsSplitJoin(s, pat, rep);
  }

  /** A document that does not mention the pattern is left as it is. */
  lemma ReplaceAllAbsent(s: string, pat: string, rep: string)
    requires |pat| > 0
    requires !Includes(s, pat)
    ensures ReplaceAll(s, pat, rep) == s
  {
    ReplaceAllIsSplitJoin(s, pat, rep);
  }

  /** A character matched by the regular-expression class `\w`. */
  predicate IsWordChar(c: char) {
    ('a' <= c <= 'z') || ('A' <= c <= 'Z') || ('0' <= c <= '9') || c == '_'
  }

  /** The first index at or after `k` holding a word character, if any. */
  function FirstWordFrom(s: string, k: nat): (r: Option<nat>)
    requires k <= |s|
    ensures r.Some? ==> k <= r.value < |s| && IsWordChar(s[r.value])
    ensures r.Some? ==> forall j :: k <= j < r.value ==> !IsWordChar(s[j])
    ensures r.None? ==> forall j :: k <= j < |s| ==> !IsWordChar(s[j])
    decreases |s| - k
  {
    if k == |s| then None
    else if IsWordChar(s[k]) then Some(k)
    else FirstWordFrom(s, k + 1)
  }

  /** The end of the run of word characters starting at `k`. */
  function WordEnd(s: string, k: nat): (e: nat)
    requires k <= |s|
    ensures k <= e <= |s|
    ensures forall j :: k <= j < e ==> IsWordChar(s[j])
    ensures e == |s| || !IsWordChar(s[e])
    decreases |s| - k
  {
    if k == |s| || !IsWordChar(s[k]) then k else WordEnd(s, k + 1)
  }

  /** The part of a regular-expression match the model uses: `m.index` and `m[0]`. */
  datatype RegexMatch = RegexMatch(index: nat, text: string)

  /**
   * `s.match(/\w+/)`: the leftmost, longest run of word characters, or
   * `null` (here `None`) when `s` has no word character at all.
   */
  function MatchWord(s: string): (m: Option<RegexMatch>)
    ensures m.None? <==> forall k :: 0 <= k < |s| ==> !IsWordChar(s[k])
    ensures m.Some? ==>
      var i, w := m.value.index, m.value.text;
      && |w| > 0
      && i + |w| <= |s| && s[i..i + |w|] == w
      && (forall k :: 0 <= k < i ==> !IsWordChar(s[k]))
      && (forall k :: 0 <= k < |w| ==> IsWordChar(w[k]))
      && (i + |w| == |s| || !IsWordChar(s[i + |w|]))
  {
    match FirstWordFrom(s, 0)
    case None => None
    case Some(i) =>
      var e := WordEnd(s, i);
      Some(RegexMatch(i, s[i..e]))
  }

  predicate IsDigit(c: char) {
    '0' <= c <= '9'
  }

  /** The value of a string of decimal digits. */
  function DigitsValue(s: string): nat
    requires forall k :: 0 <= k < |s| ==> IsDigit(s[k])
    decreases |s|
  {
    if |s| == 0 then 0
    else
      assert IsDigit(s[|s| - 1]);
      10 * DigitsValue(s[..|s| - 1]) + (s[|s| - 1] as int - '0' as int)
  }

  /**
   * The number a query string converts to when compared with `==` to a
   * number, for the strings made of decimal digits; any other string is
   * modelled as converting to nothing that equals an itag.
   */
  function DecimalValue(s: string): Option<nat> {
    if |s| > 0 && forall k :: 0 <= k < |s| ==> IsDigit(s[k]) then Some(DigitsValue(s)) else None
  }

  /** The shortest decimal spelling of a natural number. */
  function DecimalText(n: nat): (r: string)
    ensures |r| > 0
    ensures forall k :: 0 <= k < |r| ==> IsDigit(r[k])
    decreases n
  {
    var d := [(48 + n % 10) as char];
    if n < 10 then d else DecimalText(n / 10) + d
  }

  /** Reading back the decimal spelling of a number gives the number. */
  lemma {:induction false} DecimalRoundTrip(n: nat)
    ensures DecimalValue(DecimalText(n)) == Some(n)
    decreases n
  {
    var r := DecimalText(n);
    var d := (48 + n % 10) as char;
    assert d as int - '0' as int == n % 10;
    if n < 10 {
      assert r == [d];
      assert DigitsValue(r) == 10 * DigitsValue([]) + n % 10;
    } else {
      DecimalRoundTrip(n / 10);
      var p := DecimalText(n / 10);
      assert r == p + [d];
      assert r[..|r| - 1] == p;
      assert DigitsValue(p) == n / 10;
      assert DigitsValue(r) == 10 * (n / 10) + n % 10;
    }
  }
}

=== FILE: outcomes.dfy ===
/** Failure-carrying values shared by every module of the model. */
module Outcomes {

  /** A JavaScript value that may be `undefined`. */
  datatype Option<+T> = None | Some(value: T)

  /** The outcome of a call that may throw: `Err` carries the thrown error. */
  datatype Result<+T, +E> = Ok(value: T) | Err(error: E)
}

=== FILE: resolver.dfy ===
/**
 * The cache-fronted fallback resolver behind `getBasicVideoInfoDash` and
 * `getBasicVideoInfoLatestVersion`: look the video up in the cache; on a
 * miss ask the upstream as ANDROID, fall back to WEB when that throws
 * (after caching a placeholder), escalate to TV_EMBEDDED when the answer
 * carries a reason, shape the result and cache its trimmed projection.
 *
 * The resolver is a pure function of the cache and of an oracle standing
 * for the upstream library; it returns the outcome, the new cache, and the
 * trace of cache and upstream operations in the order they happen.
 */
module Resolver {
  import opened Outcomes
  import opened Video
  import opened Shaper

  /** The two output shapes; each has its own cache namespace. */
  datatype Shape = Dash | Latest

  function Suffix(shape: Shape): string {
    match shape
    case Dash => "-dash"
    case Latest => "-latest"
  }

  /** `videoId + "-dash"` or `videoId + "-latest"`. */
  function Key(videoId: string, shape: Shape): string {
    videoId + Suffix(shape)
  }

  /** A dash key and a latest key never coincide, whatever the two ids. */
  lemma KeysNeverCollide(a: string, b: string)
    ensures Key(a, Dash) != Key(b, Latest)
  {
    var x, y := Key(a, Dash), Key(b, Latest);
    assert x[|x| - 1] == 'h';
    assert y[|y| - 1] == 't';
  }

  /** Within one shape, the key determines the video id. */
  lemma KeyDeterminesVideo(a: string, b: string, shape: Shape)
    requires Key(a, shape) == Key(b, shape)
    ensures a == b
  {
    assert a == Key(a, shape)[..|a|];
    assert b == Key(b, shape)[..|b|];
  }

  /** Cache keys name one video in one shape: equal keys mean equal requests. */
  lemma KeyInjective(a: string, sa: Shape, b: string, sb: Shape)
    ensures Key(a, sa) == Key(b, sb) <==> a == b && sa == sb
  {
    if Key(a, sa) == Key(b, sb) {
      if sa != sb {
        if sa == Dash {
          KeysNeverCollide(a, b);
        } else {
          KeysNeverCollide(b, a);
        }
      }
      KeyDeterminesVideo(a, b, sa);
    }
  }

  /** The client identities the upstream is asked under. */
  datatype Client = Android | Web | TvEmbedded

  /** One upstream answer: a thrown error or a record. */
  datatype Reply = Threw(error: string) | Returned(info: VideoInfo)

  /** What the resolver does, in order. */
  datatype Event = Lookup(key: string) | Call(client: Client) | Store(key: string, entry: CacheEntry)

  /**
   * What an error thrown by the WEB or TV_EMBEDDED call does: `Propagate`
   * (the code as written) lets it escape the resolver; `Absorb` (the intended
   * handling, where upstream failures never escape the resolver) keeps the
   * last record, or the placeholder, as the answer.
   */
  datatype FallbackPolicy = Propagate | Absorb

  /** Process-wide settings: the public host, the dash filter, the error policy. */
  datatype Config = Config(hostname: string, filter: MimeFilter, fallback: FallbackPolicy)

  /** The behaviour of index.js as written. */
  function Deployed(hostname: string): Config {
    Config(hostname, ContainsZero, Propagate)
  }

  /** The intended behaviour: the MPEG-4 filter, and upstream failures absorbed. */
  function Intended(hostname: string): Config {
    Config(hostname, Mp4Containers, Absorb)
  }

  /**
   * The upstream library: `getBasicInfo(videoId, client)`, `toDash` with a
   * host-rewriting callback, and `decipher` against the session's player.
   */
  datatype Upstream = Upstream(
    getBasicInfo: (string, Client) -> Reply,
    toDash: (StreamingData, string) -> string,
    decipher: Format -> string)

  datatype Resolution = Resolution(result: Result<VideoInfo, string>, cache: Cache, trace: seq<Event>)

  /** The resolver's state between upstream calls. */
  datatype Step =
    | Working(info: VideoInfo, cache: Cache, trace: seq<Event>)
    | Escaped(error: string, cache: Cache, trace: seq<Event>)

  /** `after` agrees with `before` on every key but `key`. */
  ghost predicate SameExcept(before: Cache, after: Cache, key: string) {
    forall k :: k != key ==> (k in after <==> k in before) && (k in before ==> after[k] == before[k])
  }

  /** Every event of the trace only involves the cache entry under `key`. */
  ghost predicate OnlyTouches(t: seq<Event>, key: string) {
    forall k :: 0 <= k < |t| ==> TouchesOnly(t[k], key)
  }

  /** The event only involves the cache entry under `key`, if any. */
  predicate TouchesOnly(e: Event, key: string) {
    match e
    case Lookup(k) => k == key
    case Call(_) => true
    case Store(k, _) => k == key
  }

  // ---------------------------------------------------------------------
  // A reference reading of the fallback, straight off the upstream answers.

  predicate AndroidThrew(up: Upstream, videoId: string) {
    up.getBasicInfo(videoId, Android).Threw?
  }

  /** The record whose reason is looked at: ANDROID's, else WEB's, else the placeholder. */
  function WorkingInfo(cfg: Config, up: Upstream, videoId: string): Option<VideoInfo> {
    match up.getBasicInfo(videoId, Android)
    case Returned(a) => Some(a)
    case Threw(_) =>
      match up.getBasicInfo(videoId, Web)
      case Returned(w) => Some(w)
      case Threw(_) =>
        if cfg.fallback == Propagate then None else Some(Restore(NegativeEntry(videoId)))
  }

  /** TV_EMBEDDED is asked exactly when the working record has a truthy reason. */
  predicate Escalates(cfg: Config, up: Upstream, videoId: string) {
    var w := WorkingInfo(cfg, up, videoId);
    w.Some? && Truthy(w.value.playability_status.reason)
  }

  /** The record the fallback settles on, before shaping; `None` when an error escapes. */
  function Authoritative(cfg: Config, up: Upstream, videoId: string): Option<VideoInfo> {
    var w := WorkingInfo(cfg, up, videoId);
    if !Escalates(cfg, up, videoId) then w
    else match up.getBasicInfo(videoId, TvEmbedded)
      case Returned(tv) => Some(tv)
      case Threw(_) => if cfg.fallback == Propagate then None else w
  }

  /** The upstream calls the fallback makes, in order. */
  function ExpectedCalls(cfg: Config, up: Upstream, videoId: string): seq<Client> {
    [Android]
      + (if AndroidThrew(up, videoId) then [Web] else [])
      + (if Escalates(cfg, up, videoId) then [TvEmbedded] else [])
  }

  /** What the first stage records: one call, or the call, the placeholder write and WEB. */
  function FirstEvents(up: Upstream, videoId: string, key: string): seq<Event> {
    if AndroidThrew(up, videoId) then [Call(Android), Store(key, NegativeEntry(videoId)), Call(Web)]
    else [Call(Android)]
  }

  // ---------------------------------------------------------------------
  // The resolver, stage by stage.

  /** ANDROID first; when it throws, write the placeholder, then ask WEB. */
  function FirstAttempt(cfg: Config, up: Upstream, videoId: string, key: string, cache: Cache): (s: Step)
    ensures s.trace == FirstEvents(up, videoId, key)
    ensures s.cache == if AndroidThrew(up, videoId) then cache[key := NegativeEntry(videoId)] else cache
    ensures s.Working? <==> WorkingInfo(cfg, up, videoId).Some?
    ensures s.Working? ==> s.info == WorkingInfo(cfg, up, videoId).value
  {
    match up.getBasicInfo(videoId, Android)
    case Returned(info) => Working(info, cache, [Call(Android)])
    case Threw(_) =>
      var neg := NegativeEntry(videoId);
      var c := cache[key := neg];
      var t := [Call(Android), Store(key, neg), Call(Web)];
      match up.getBasicInfo(videoId, Web)
      case Returned(info) => Working(info, c, t)
      case Threw(e) =>
        if cfg.fallback == Propagate then Escaped(e, c, t) else Working(Restore(neg), c, t)
  }

  /** A truthy `playability_status.reason` sends the request on to TV_EMBEDDED. */
  function Escalate(cfg: Config, up: Upstream, videoId: string, step: Step): (s: Step)
    ensures s.cache == step.cache
    ensures s.trace == step.trace
      + (if step.Working? && Truthy(step.info.playability_status.reason) then [Call(TvEmbedded)] else [])
  {
    match step
    case Escaped(_, _, _) => step
    case Working(info, c, t) =>
      if !Truthy(info.playability_status.reason) then step
      else
        var t' := t + [Call(TvEmbedded)];
        match up.getBasicInfo(videoId, TvEmbedded)
        case Returned(tv) => Working(tv, c, t')
        case Threw(e) => if cfg.fallback == Propagate then Escaped(e, c, t') else Working(info, c, t')
  }

  /** The two upstream stages, read against the reference reading. */
  lemma Stages(cfg: Config, up: Upstream, videoId: string, key: string, cache: Cache)
    ensures var s := Escalate(cfg, up, videoId, FirstAttempt(cfg, up, videoId, key, cache));
      var auth := Authoritative(cfg, up, videoId);
      && s.trace == FirstEvents(up, videoId, key) + (if Escalates(cfg, up, videoId) then [Call(TvEmbedded)] else [])
      && s.cache == (if AndroidThrew(up, videoId) then cache[key := NegativeEntry(videoId)] else cache)
      && (s.Working? <==> auth.Some?)
      && (s.Working? ==> s.info == auth.value)
  {
  }

  function ShapeFor(cfg: Config, up: Upstream, shape: Shape, info: VideoInfo): (r: VideoInfo)
    ensures r.playability_status == info.playability_status
  {
    match shape
    case Dash => ShapeDash(cfg.filter, up.toDash, cfg.hostname, info)
    case Latest => ShapeLatest(up.decipher, info)
  }

  /** Shape the settled record and write its projection; an escaped error is passed on. */
  function Finish(cfg: Config, up: Upstream, shape: Shape, key: string, lookup: Event, step: Step): (res: Resolution)
    ensures res.result.Ok? <==> step.Working?
    ensures res.result.Ok? ==> res.result.value == ShapeFor(cfg, up, shape, step.info)
    ensures res.result.Err? ==> res.result.error == step.error
    ensures res.cache == if step.Working? then step.cache[key := Trim(res.result.value)] else step.cache
    ensures res.trace == [lookup] + step.trace + (if step.Working? then [Store(key, Trim(res.result.value))] else [])
  {
    match step
    case Escaped(e, c, t) => Resolution(Err(e), c, [lookup] + t)
    case Working(info, c, t) =>
      var shaped := ShapeFor(cfg, up, shape, info);
      var entry := Trim(shaped);
      Resolution(Ok(shaped), c[key := entry], [lookup] + t + [Store(key, entry)])
  }

  /**
   * `getBasicVideoInfoDash(videoId)` for `Dash`,
   * `getBasicVideoInfoLatestVersion(videoId)` for `Latest`.
   */
  function Resolve(cfg: Config, up: Upstream, shape: Shape, videoId: string, cache: Cache): (res: Resolution)
    ensures |res.trace| >= 1 && res.trace[0] == Lookup(Key(videoId, shape))
    ensures OnlyTouches(res.trace, Key(videoId, shape))
    ensures SameExcept(cache, res.cache, Key(videoId, shape))
    ensures res.result.Ok? ==> Key(videoId, shape) in res.cache
    ensures res.result.Ok? ==> res.cache[Key(videoId, shape)] == Trim(res.result.value)
  {
    var key := Key(videoId, shape);
    if key in cache then Resolution(Ok(Restore(cache[key])), cache, [Lookup(key)])
    else
      var step := Escalate(cfg, up, videoId, FirstAttempt(cfg, up, videoId, key, cache));
      var res := Finish(cfg, up, shape, key, Lookup(key), step);
      assert OnlyTouches(res.trace, key) by {
        Stages(cfg, up, videoId, key, cache);
      }
      res
  }

  /** The upstream calls recorded in a trace. */
  function CallsOf(t: seq<Event>): seq<Client>
    decreases |t|
  {
    if |t| == 0 then []
    else (if t[0].Call? then [t[0].client] else []) + CallsOf(t[1..])
  }

  /** The cache writes recorded in a trace. */
  function StoresOf(t: seq<Event>): seq<Event>
    decreases |t|
  {
    if |t| == 0 then []
    else (if t[0].Store? then [t[0]] else []) + StoresOf(t[1..])
  }

  lemma {:induction false} CallsOfAppend(a: seq<Event>, b: seq<Event>)
    ensures CallsOf(a + b) == CallsOf(a) + CallsOf(b)
    decreases |a|
  {
    if |a| == 0 {
      assert a + b == b;
    } else {
      var ab := a + b;
      assert ab[0] == a[0];
      assert ab[1..] == a[1..] + b;
      CallsOfAppend(a[1..], b);
      var h := if a[0].Call? then [a[0].client] else [];
      assert CallsOf(ab) == h + CallsOf(a[1..] + b);
      assert CallsOf(a) == h + CallsOf(a[1..]);
    }
  }

  lemma {:induction false} StoresOfAppend(a: seq<Event>, b: seq<Event>)
    ensures StoresOf(a + b) == StoresOf(a) + StoresOf(b)
    decreases |a|
  {
    if |a| == 0 {
      assert a + b == b;
    } else {
      var ab := a + b;
      assert ab[0] == a[0];
      assert ab[1..] == a[1..] + b;
      StoresOfAppend(a[1..], b);
      var h := if a[0].Store? then [a[0]] else [];
      assert StoresOf(ab) == h + StoresOf(a[1..] + b);
      assert StoresOf(a) == h + StoresOf(a[1..]);
    }
  }

  /** The trace of a miss: lookup, first stage, escalation, final write. */
  lemma MissTrace(cfg: Config, up: Upstream, shape: Shape, videoId: string, cache: Cache)
    requires Key(videoId, shape) !in cache
    ensures var key := Key(videoId, shape);
      var res := Resolve(cfg, up, shape, videoId, cache);
      res.trace == [Lookup(key)] + FirstEvents(up, videoId, key)
        + (if Escalates(cfg, up, videoId) then [Call(TvEmbedded)] else [])
        + (if res.result.Ok? then [Store(key, Trim(res.result.value))] else [])
  {
    Stages(cfg, up, videoId, Key(videoId, shape), cache);
  }

  /** The calls of a four-part trace are those of its parts. */
  lemma CallsOfParts(lookup: Event, first: seq<Event>, second: seq<Event>, last: seq<Event>)
    requires lookup.Lookup?
    ensures CallsOf([lookup] + first + second + last) == CallsOf(first) + CallsOf(second) + CallsOf(last)
  {
    var p1 := [lookup] + first;
    var p2 := p1 + second;
    CallsOfAppend(p2, last);
    CallsOfAppend(p1, second);
    CallsOfAppend([lookup], first);
    assert CallsOf([lookup]) == [] by {
      assert [lookup][1..] == [];
    }
    assert CallsOf(p1) == CallsOf(first);
    assert CallsOf(p2) == CallsOf(first) + CallsOf(second);
  }

  /** The writes of a four-part trace are those of its parts. */
  lemma StoresOfParts(lookup: Event, first: seq<Event>, second: seq<Event>, last: seq<Event>)
    requires lookup.Lookup?
    ensures StoresOf([lookup] + first + second + last) == StoresOf(first) + StoresOf(second) + StoresOf(last)
  {
    var p1 := [lookup] + first;
    var p2 := p1 + second;
    StoresOfAppend(p2, last);
    StoresOfAppend(p1, second);
    StoresOfAppend([lookup], first);
    assert StoresOf([lookup]) == [] by {
      assert [lookup][1..] == [];
    }
    assert StoresOf(p1) == StoresOf(first);
    assert StoresOf(p2) == StoresOf(first) + StoresOf(second);
  }

  lemma FirstEventsCalls(up: Upstream, videoId: string, key: string)
    ensures CallsOf(FirstEvents(up, videoId, key)) == if AndroidThrew(up, videoId) then [Android, Web] else [Android]
  {
    var first := FirstEvents(up, videoId, key);
    if AndroidThrew(up, videoId) {
      assert first[1..] == [Store(key, NegativeEntry(videoId)), Call(Web)];
      assert first[1..][1..] == [Call(Web)];
      assert first[1..][1..][1..] == [];
      assert CallsOf(first[1..][1..]) == [Web];
      assert CallsOf(first[1..]) == [Web];
    } else {
      assert first[1..] == [];
    }
  }

  lemma FirstEventsStores(up: Upstream, videoId: string, key: string)
    ensures StoresOf(FirstEvents(up, videoId, key)) ==
      if AndroidThrew(up, videoId) then [Store(key, NegativeEntry(videoId))] else []
  {
    var first := FirstEvents(up, videoId, key);
    if AndroidThrew(up, videoId) {
      assert first[1..] == [Store(key, NegativeEntry(videoId)), Call(Web)];
      assert first[1..][1..] == [Call(Web)];
      assert first[1..][1..][1..] == [];
      assert StoresOf(first[1..][1..]) == [];
      assert StoresOf(first[1..]) == [Store(key, NegativeEntry(videoId))];
    } else {
      assert first[1..] == [];
    }
  }

  lemma ExpectedCallsFacts(cfg: Config, up: Upstream, videoId: string)
    ensures var calls := ExpectedCalls(cfg, up, videoId);
      && calls[0] == Android
      && (Web in calls <==> AndroidThrew(up, videoId))
      && (TvEmbedded in calls <==> Escalates(cfg, up, videoId))
      && |calls| <= 3
  {
  }

  /**
   * On a miss the resolver calls ANDROID first, WEB exactly when ANDROID
   * threw, TV_EMBEDDED exactly when the working record has a truthy reason:
   * at most three calls, none repeated.
   */
  lemma FallbackOrder(cfg: Config, up: Upstream, shape: Shape, videoId: string, cache: Cache)
    requires Key(videoId, shape) !in cache
    ensures var calls := CallsOf(Resolve(cfg, up, shape, videoId, cache).trace);
      && calls == ExpectedCalls(cfg, up, videoId)
      && calls[0] == Android
      && (Web in calls <==> AndroidThrew(up, videoId))
      && (TvEmbedded in calls <==> Escalates(cfg, up, videoId))
      && |calls| <= 3
  {
    var key := Key(videoId, shape);
    var res := Resolve(cfg, up, shape, videoId, cache);
    MissTrace(cfg, up, shape, videoId, cache);
    var last := if res.result.Ok? then [Store(key, Trim(res.result.value))] else [];
    MissCalls(cfg, up, videoId, key, last, res.trace);
    ExpectedCallsFacts(cfg, up, videoId);
  }

  lemma MissCalls(cfg: Config, up: Upstream, videoId: string, key: string, last: seq<Event>, t: seq<Event>)
    requires forall k :: 0 <= k < |last| ==> last[k].Store?
    requires t == [Lookup(key)] + FirstEvents(up, videoId, key)
      + (if Escalates(cfg, up, videoId) then [Call(TvEmbedded)] else []) + last
    ensures CallsOf(t) == ExpectedCalls(cfg, up, videoId)
  {
    var first := FirstEvents(up, videoId, key);
    var second := if Escalates(cfg, up, videoId) then [Call(TvEmbedded)] else [];
    CallsOfParts(Lookup(key), first, second, last);
    FirstEventsCalls(up, videoId, key);
    NoCallsInStores(last);
    assert CallsOf(second) == if Escalates(cfg, up, videoId) then [TvEmbedded] else [];
  }

  lemma MissStores(cfg: Config, up: Upstream, videoId: string, key: string, last: seq<Event>, t: seq<Event>)
    requires forall k :: 0 <= k < |last| ==> last[k].Store?
    requires t == [Lookup(key)] + FirstEvents(up, videoId, key)
      + (if Escalates(cfg, up, videoId) then [Call(TvEmbedded)] else []) + last
    ensures StoresOf(t) == (if AndroidThrew(up, videoId) then [Store(key, NegativeEntry(videoId))] else []) + last
  {
    var first := FirstEvents(up, videoId, key);
    var second := if Escalates(cfg, up, videoId) then [Call(TvEmbedded)] else [];
    StoresOfParts(Lookup(key), first, second, last);
    FirstEventsStores(up, videoId, key);
    OnlyStores(last);
    assert StoresOf(second) == [];
    var neg := if AndroidThrew(up, videoId) then [Store(key, NegativeEntry(videoId))] else [];
    assert StoresOf(t) == neg + [] + last;
  }

  lemma {:induction false} OnlyStores(t: seq<Event>)
    requires forall k :: 0 <= k < |t| ==> t[k].Store?
    ensures StoresOf(t) == t
    decreases |t|
  {
    if |t| > 0 {
      OnlyStores(t[1..]);
      assert t == [t[0]] + t[1..];
    }
  }

  lemma {:induction false} NoCallsInStores(t: seq<Event>)
    requires forall k :: 0 <= k < |t| ==> t[k].Store?
    ensures CallsOf(t) == []
    decreases |t|
  {
    if |t| > 0 {
      NoCallsInStores(t[1..]);
    }
  }

  /**
   * On a miss the result is the settled record in the requested shape, and
   * an error escapes exactly when the reference reading finds none.
   */
  lemma MissOutcome(cfg: Config, up: Upstream, shape: Shape, videoId: string, cache: Cache)
    requires Key(videoId, shape) !in cache
    ensures var res := Resolve(cfg, up, shape, videoId, cache);
      var auth := Authoritative(cfg, up, videoId);
      && (res.result.Ok? <==> auth.Some?)
      && (res.result.Ok? ==> res.result.value == ShapeFor(cfg, up, shape, auth.value))
      && (res.result.Ok? ==> res.result.value.playability_status == auth.value.playability_status)
  {
    Stages(cfg, up, videoId, Key(videoId, shape), cache);
  }

  /**
   * On a miss the cache is written at most twice: the placeholder first,
   * exactly when ANDROID threw, and the trimmed result last, exactly when
   * the resolution completes. An escaping error leaves the placeholder (or
   * nothing) behind; a completed resolution overwrites it.
   */
  lemma MissWrites(cfg: Config, up: Upstream, shape: Shape, videoId: string, cache: Cache)
    requires Key(videoId, shape) !in cache
    ensures var key := Key(videoId, shape);
      var res := Resolve(cfg, up, shape, videoId, cache);
      var neg := NegativeEntry(videoId);
      && StoresOf(res.trace) ==
           (if AndroidThrew(up, videoId) then [Store(key, neg)] else [])
           + (if res.result.Ok? then [Store(key, Trim(res.result.value))] else [])
      && (res.result.Err? && AndroidThrew(up, videoId) ==> key in res.cache && res.cache[key] == neg)
      && (res.result.Err? && !AndroidThrew(up, videoId) ==> key !in res.cache)
      && (AndroidThrew(up, videoId) ==> res.trace[1..4] == [Call(Android), Store(key, neg), Call(Web)])
  {
    var key := Key(videoId, shape);
    var res := Resolve(cfg, up, shape, videoId, cache);
    Stages(cfg, up, videoId, key, cache);
    MissTrace(cfg, up, shape, videoId, cache);
    var last := if res.result.Ok? then [Store(key, Trim(res.result.value))] else [];
    MissStores(cfg, up, videoId, key, last, res.trace);
    if AndroidThrew(up, videoId) {
      assert res.trace[1..4] == FirstEvents(up, videoId, key);
    }
  }

  /**
   * A key present in the cache is answered from the cache: the stored
   * entry is returned, nothing is asked upstream and nothing is written.
   */
  lemma CacheHit(cfg: Config, up: Upstream, shape: Shape, videoId: string, cache: Cache)
    requires Key(videoId, shape) in cache
    ensures var res := Resolve(cfg, up, shape, videoId, cache);
      && res.result == Ok(Restore(cache[Key(videoId, shape)]))
      && Trim(res.result.value) == cache[Key(videoId, shape)]
      && res.cache == cache
      && CallsOf(res.trace) == []
      && StoresOf(res.trace) == []
  {
  }

  /**
   * Resolving twice in a row: once the first resolution completed, the
   * second is a pure cache hit returning the trimmed first result.
   */
  lemma SecondResolutionHits(cfg: Config, up: Upstream, shape: Shape, videoId: string, cache: Cache)
    ensures var first := Resolve(cfg, up, shape, videoId, cache);
      var second := Resolve(cfg, up, shape, videoId, first.cache);
      first.result.Ok? ==>
        && second.result == Ok(Restore(Trim(first.result.value)))
        && second.cache == first.cache
        && second.trace == [Lookup(Key(videoId, shape))]
  {
  }

  /** A resolution only depends on the cache entry under its own key. */
  lemma ReadsOnlyOwnKey(cfg: Config, up: Upstream, shape: Shape, videoId: string, c1: Cache, c2: Cache)
    requires var key := Key(videoId, shape);
      (key in c1 <==> key in c2) && (key in c1 ==> c1[key] == c2[key])
    ensures var key := Key(videoId, shape);
      var r1, r2 := Resolve(cfg, up, shape, videoId, c1), Resolve(cfg, up, shape, videoId, c2);
      && r1.result == r2.result
      && r1.trace == r2.trace
      && (key in r1.cache <==> key in r2.cache)
      && (key in r1.cache ==> r1.cache[key] == r2.cache[key])
  {
    var key := Key(videoId, shape);
    if key !in c1 {
      var s1 := Escalate(cfg, up, videoId, FirstAttempt(cfg, up, videoId, key, c1));
      var s2 := Escalate(cfg, up, videoId, FirstAttempt(cfg, up, videoId, key, c2));
      assert s1.trace == s2.trace;
      assert key in s1.cache <==> key in s2.cache;
      assert key in s1.cache ==> s1.cache[key] == s2.cache[key];
    }
  }

  /**
   * Resolving a video in one shape leaves every entry of the other shape's
   * namespace as it was, for every pair of video ids.
   */
  lemma ShapesIsolated(cfg: Config, up: Upstream, shape: Shape, a: string, b: string, cache: Cache)
    ensures var other := if shape == Dash then Latest else Dash;
      var k := Key(b, other);
      var res := Resolve(cfg, up, shape, a, cache);
      && (k in res.cache <==> k in cache)
      && (k in cache ==> res.cache[k] == cache[k])
  {
    var other := if shape == Dash then Latest else Dash;
    var k := Key(b, other);
    var res := Resolve(cfg, up, shape, a, cache);
    if shape == Dash { KeysNeverCollide(a, b); } else { KeysNeverCollide(b, a); }
    assert k != Key(a, shape);
    assert k in res.cache <==> k in res.cache - {Key(a, shape)};
    assert k in cache <==> k in cache - {Key(a, shape)};
    if k in cache {
      assert (res.cache - {Key(a, shape)})[k] == (cache - {Key(a, shape)})[k];
    }
  }

  // ---------------------------------------------------------------------
  // The dash namespace only ever holds manifest-bearing entries.

  predicate IsDashKey(k: string) {
    |k| >= 5 && k[|k| - 5..] == "-dash"
  }

  lemma DashKeys(videoId: string)
    ensures IsDashKey(Key(videoId, Dash))
    ensures !IsDashKey(Key(videoId, Latest))
  {
    var x := Key(videoId, Dash);
    assert x[|x| - 5..] == "-dash";
    var y := Key(videoId, Latest);
    assert y[|y| - 1] == 't';
  }

  /** An entry with streaming data carries a manifest and only kept adaptive formats. */
  predicate DashReady(filter: MimeFilter, e: CacheEntry) {
    e.streaming_data.Some? ==>
      && e.streaming_data.value.dash_file.Some?
      && forall k :: 0 <= k < |e.streaming_data.value.adaptive_formats| ==>
           Keeps(filter, e.streaming_data.value.adaptive_formats[k])
  }

  predicate DashEntriesReady(filter: MimeFilter, cache: Cache) {
    forall k :: k in cache && IsDashKey(k) ==> DashReady(filter, cache[k])
  }

  /**
   * Every resolution, in either shape, keeps the dash namespace ready; a dash
   * resolution against a ready cache returns a ready record.
   */
  lemma ResolveKeepsDashReady(cfg: Config, up: Upstream, shape: Shape, videoId: string, cache: Cache)
    requires DashEntriesReady(cfg.filter, cache)
    ensures var res := Resolve(cfg, up, shape, videoId, cache);
      && DashEntriesReady(cfg.filter, res.cache)
      && (shape == Dash && res.result.Ok? ==> DashReady(cfg.filter, Trim(res.result.value)))
  {
    var key := Key(videoId, shape);
    var res := Resolve(cfg, up, shape, videoId, cache);
    DashKeys(videoId);
    if shape == Dash && res.result.Ok? {
      if key in cache {
        assert Trim(res.result.value) == cache[key];
      } else {
        MissOutcome(cfg, up, shape, videoId, cache);
        ShapedDashReady(cfg, up, Authoritative(cfg, up, videoId).value);
      }
    }
    if key in res.cache && IsDashKey(key) {
      OwnEntryReady(cfg, up, videoId, cache);
    }
    ReadyExcept(cfg.filter, cache, res.cache, key);
  }

  /** The dash projection of any record is ready. */
  lemma ShapedDashReady(cfg: Config, up: Upstream, info: VideoInfo)
    ensures DashReady(cfg.filter, Trim(ShapeFor(cfg, up, Dash, info)))
  {
  }

  /** After a dash resolution against a ready cache, the entry under its key is ready. */
  lemma OwnEntryReady(cfg: Config, up: Upstream, videoId: string, cache: Cache)
    requires DashEntriesReady(cfg.filter, cache)
    ensures var key := Key(videoId, Dash);
      var res := Resolve(cfg, up, Dash, videoId, cache);
      key in res.cache ==> DashReady(cfg.filter, res.cache[key])
  {
    var key := Key(videoId, Dash);
    var res := Resolve(cfg, up, Dash, videoId, cache);
    DashKeys(videoId);
    if key !in cache {
      if res.result.Ok? {
        MissOutcome(cfg, up, Dash, videoId, cache);
        ShapedDashReady(cfg, up, Authoritative(cfg, up, videoId).value);
      } else {
        MissWrites(cfg, up, Dash, videoId, cache);
        assert DashReady(cfg.filter, NegativeEntry(videoId));
      }
    }
  }

  /** A ready cache stays ready when only a ready entry (or none) under `key` changes. */
  lemma ReadyExcept(filter: MimeFilter, before: Cache, after: Cache, key: string)
    requires DashEntriesReady(filter, before) && SameExcept(before, after, key)
    requires key in after && IsDashKey(key) ==> DashReady(filter, after[key])
    ensures DashEntriesReady(filter, after)
  {
    forall k | k in after && IsDashKey(k)
      ensures DashReady(filter, after[k])
    {
      if k != key {
        assert k in before && after[k] == before[k];
      }
    }
  }
}

=== FILE: scenarios.dfy ===
/**
 * Worked requests against a fixed upstream, under either configuration: a
 * redirect to a media URL through the proxy host, and a blocked video on
 * the dash route.
 */
module Scenarios {
  import opened Outcomes
  import opened JsText
  import opened Urls
  import opened Video
  import opened Shaper
  import opened Resolver
  import opened Handlers

  const ProxyHost := "proxy.example"
  const OriginUrl := "https://origin/x"
  const Itag22 := Format(22, "video/mp4", Some(OriginUrl), None)

  const PlayableInfo := VideoInfo(
    PlayabilityStatus(OkStatus, None),
    Some(StreamingData([Itag22], [], None, None)),
    map[])

  const BlockedReason := "age restricted"
  const BlockedInfo := VideoInfo(PlayabilityStatus("LOGIN_REQUIRED", Some(BlockedReason)), None, map[])

  /** An upstream that gives every client the same record. */
  function Answering(info: VideoInfo): Upstream {
    Upstream((id: string, c: Client) => Returned(info), (sd: StreamingData, h: string) => "", (f: Format) => "")
  }

  lemma ProxyHostValid()
    ensures ValidHost(ProxyHost)
  {
    forall k | 0 <= k < |ProxyHost| ensures !EndsHost(ProxyHost[k]) {
      assert ProxyHost[k] in "proxy.eamle";
    }
  }

  lemma OriginUrlParses()
    ensures ParseUrl(OriginUrl) == Some(Url("https", "origin", "/x", ""))
  {
    var u := Url("https", "origin", "/x", "");
    OriginUrlWellFormed();
    OriginUrlSpelled();
    ParseSerialize(u);
  }

  lemma OriginUrlWellFormed()
    ensures WellFormed(Url("https", "origin", "/x", ""))
  {
    OriginSchemeClean();
    OriginHostClean();
    OriginPathClean();
  }

  lemma OriginSchemeClean()
    ensures forall k :: 0 <= k < |"https"| ==> "https"[k] != ':'
  {
    forall k | 0 <= k < |"https"| ensures "https"[k] != ':' {
      assert "https"[k] in "hstp";
    }
  }

  lemma OriginHostClean()
    ensures forall k :: 0 <= k < |"origin"| ==> !EndsHost("origin"[k])
  {
    forall k | 0 <= k < |"origin"| ensures !EndsHost("origin"[k]) {
      assert "origin"[k] in "origin";
    }
  }

  lemma OriginPathClean()
    ensures forall k :: 0 <= k < |"/x"| ==> !EndsPath("/x"[k])
  {
    forall k | 0 <= k < |"/x"| ensures !EndsPath("/x"[k]) {
      assert "/x"[k] in "/x";
    }
  }

  lemma OriginUrlSpelled()
    ensures Serialize(Url("https", "origin", "/x", "")) == OriginUrl
  {
    assert "https" + "://" == "https://";
    assert "https://" + "origin" == "https://origin";
    assert "https://origin" + "/x" == "https://origin/x";
  }

  lemma ItagQueryReads22()
    ensures DecimalValue("22") == Some(22)
  {
    DecimalRoundTrip(22);
    assert DecimalText(2) == "2";
    assert DecimalText(22) == "22";
  }

  /**
   * `/latest_version?id=abc123&itag=22`, with itag 22 at `https://origin/x`
   * and the proxy at `proxy.example`: a redirect to `https://proxy.example/x`,
   * with the trimmed record cached.
   */
  lemma RedirectThroughProxy(cfg: Config)
    requires cfg.hostname == ProxyHost
    ensures var s := ServeLatestVersion(cfg, Answering(PlayableInfo), Some("abc123"), Some("22"), map[]);
      && s.response == Redirect("https://proxy.example/x")
      && s.cache == map[Key("abc123", Latest) := Trim(PlayableInfo)]
  {
    ProxyHostValid();
    PlayableResolves(cfg);
    Itag22Redirects();
    var res := Resolve(cfg, Answering(PlayableInfo), Latest, "abc123", map[]);
    assert Truthy(Some("abc123")) && Truthy(Some("22"));
    assert ServeLatestVersion(cfg, Answering(PlayableInfo), Some("abc123"), Some("22"), map[])
      == Served(LatestResponse(ProxyHost, "abc123", "22", res.result), res.cache);
  }

  /** The playable record is resolved from upstream, unchanged by the latest shape, and cached. */
  lemma PlayableResolves(cfg: Config)
    ensures var res := Resolve(cfg, Answering(PlayableInfo), Latest, "abc123", map[]);
      && res.result == Ok(PlayableInfo)
      && res.cache == map[Key("abc123", Latest) := Trim(PlayableInfo)]
  {
    var up := Answering(PlayableInfo);
    var res := Resolve(cfg, up, Latest, "abc123", map[]);
    MissOutcome(cfg, up, Latest, "abc123", map[]);
    assert Authoritative(cfg, up, "abc123") == Some(PlayableInfo);
    var shaped := ShapeLatest(up.decipher, PlayableInfo);
    assert shaped.streaming_data.value.formats == [Itag22];
    assert shaped == PlayableInfo;
  }

  /** Itag 22 of the playable record is redirected to through the proxy host. */
  lemma Itag22Redirects()
    ensures ValidHost(ProxyHost)
    ensures LatestResponse(ProxyHost, "abc123", "22", Ok(PlayableInfo)) == Redirect("https://proxy.example/x")
  {
    ProxyHostValid();
    ItagQueryReads22();
    assert [Itag22] + [] == [Itag22];
    UniqueItagSelection([Itag22], "22", 0);
    OriginUrlParses();
    var u := Url("https", "origin", "/x", "");
    assert Serialize(WithHost(u, ProxyHost)) == "https" + "://" + "proxy.example" + "/x" + "";
    ProxyLocationSpelled();
  }

  lemma ProxyLocationSpelled()
    ensures "https" + "://" + "proxy.example" + "/x" + "" == "https://proxy.example/x"
  {
    assert "https" + "://" == "https://";
    assert "https://" + "proxy.example" == "https://proxy.example";
    assert "https://proxy.example" + "/x" == "https://proxy.example/x";
  }

  /**
   * `/api/manifest/dash/id/blocked1` for a video every client reports as
   * not playable: ANDROID's reason sends the request on to TV_EMBEDDED, the
   * answer is a 400 naming the video and the reason, and the unplayable
   * record itself is cached.
   */
  lemma BlockedDash(cfg: Config)
    ensures var up := Answering(BlockedInfo);
      var s := ServeDash(cfg, up, "blocked1", map[]);
      && s.response.Reply? && s.response.status == 400
      && Includes(s.response.body.message, "blocked1")
      && Includes(s.response.body.message, BlockedReason)
      && s.cache == map[Key("blocked1", Dash) := Trim(BlockedInfo)]
      && CallsOf(Resolve(cfg, up, Dash, "blocked1", map[]).trace) == [Android, TvEmbedded]
  {
    var up := Answering(BlockedInfo);
    var key := Key("blocked1", Dash);
    var res := Resolve(cfg, up, Dash, "blocked1", map[]);
    MissOutcome(cfg, up, Dash, "blocked1", map[]);
    FallbackOrder(cfg, up, Dash, "blocked1", map[]);
    assert Escalates(cfg, up, "blocked1");
    assert Authoritative(cfg, up, "blocked1") == Some(BlockedInfo);
    assert res.result == Ok(BlockedInfo);
    assert res.cache == map[key := Trim(BlockedInfo)];
  }
}

=== FILE: shaper.dfy ===
/**
 * The two shape-specific post-processing steps the resolver applies to a
 * freshly fetched record before caching it.
 */
module Shaper {
  import opened Outcomes
  import opened JsText
  import opened Video

  /**
   * Which adaptive formats the dash shape keeps. `ContainsZero` is what
   * `mime_type.includes("audio/mp4" | "video/mp4")` computes: `|` is a
   * bitwise OR, both strings convert to `NaN`, the OR is `0`, and
   * `includes(0)` searches for the text `"0"`. `Mp4Containers` is the
   * evident intent: keep audio/mp4 and video/mp4 entries.
   */
  datatype MimeFilter = ContainsZero | Mp4Containers

  /** The test the dash shape applies to one adaptive format. */
  predicate Keeps(filter: MimeFilter, f: Format)
    ensures filter == ContainsZero ==> (Keeps(filter, f) <==> '0' in f.mime_type)
  {
    IncludesChar(f.mime_type, '0');
    assert "0" == ['0'];
    match filter
    case ContainsZero => Includes(f.mime_type, "0")
    case Mp4Containers => Includes(f.mime_type, "audio/mp4") || Includes(f.mime_type, "video/mp4")
  }

  /** `a` is `b` with some entries dropped and the rest in their original order. */
  ghost predicate IsSubsequence(a: seq<Format>, b: seq<Format>)
    decreases |b|
  {
    if |a| == 0 then true
    else if |b| == 0 then false
    else if a[0] == b[0] then IsSubsequence(a[1..], b[1..])
    else IsSubsequence(a, b[1..])
  }

  /** `adaptive_formats.filter(...)`: the entries the filter keeps. */
  function FilterFormats(filter: MimeFilter, fs: seq<Format>): (r: seq<Format>)
    ensures forall k :: 0 <= k < |r| ==> Keeps(filter, r[k])
    decreases |fs|
  {
    if |fs| == 0 then []
    else if Keeps(filter, fs[0]) then [fs[0]] + FilterFormats(filter, fs[1..])
    else FilterFormats(filter, fs[1..])
  }

  /** The filter keeps the order of the entries it does not drop. */
  lemma {:induction false} FilterIsSubsequence(filter: MimeFilter, fs: seq<Format>)
    ensures IsSubsequence(FilterFormats(filter, fs), fs)
    decreases |fs|
  {
    if |fs| > 0 {
      FilterIsSubsequence(filter, fs[1..]);
      var rest := FilterFormats(filter, fs[1..]);
      if Keeps(filter, fs[0]) {
        assert ([fs[0]] + rest)[1..] == rest;
      } else {
        assert |rest| > 0 ==> rest[0] != fs[0];
      }
    }
  }

  /**
   * The filter holds every kept entry as often as the input does, and no
   * dropped one.
   */
  lemma {:induction false} FilterCounts(filter: MimeFilter, fs: seq<Format>)
    ensures forall f :: multiset(FilterFormats(filter, fs))[f] == if Keeps(filter, f) then multiset(fs)[f] else 0
    decreases |fs|
  {
    if |fs| > 0 {
      FilterCounts(filter, fs[1..]);
      assert fs == [fs[0]] + fs[1..];
      assert multiset(fs) == multiset([fs[0]]) + multiset(fs[1..]);
    }
  }

  /** Every kept entry of the input survives the filter, and no dropped one does. */
  lemma FilterKeepsExactly(filter: MimeFilter, fs: seq<Format>, f: Format)
    requires f in fs
    ensures f in FilterFormats(filter, fs) <==> Keeps(filter, f)
  {
    assert multiset(fs)[f] > 0;
    FilterCounts(filter, fs);
    var r := FilterFormats(filter, fs);
    assert f in r <==> multiset(r)[f] > 0;
  }

  /**
   * The dash shape: narrow `adaptive_formats`, then let the upstream library
   * render the manifest from the narrowed record with every media host set
   * to `hostname`. A record without `streaming_data` is left as it is.
   */
  function ShapeDash(filter: MimeFilter, toDash: (StreamingData, string) -> string,
                     hostname: string, info: VideoInfo): (r: VideoInfo)
    ensures r.playability_status == info.playability_status
    ensures r.basic_info == info.basic_info
    ensures r.streaming_data.Some? <==> info.streaming_data.Some?
    ensures r.streaming_data.Some? ==>
      var before, after := info.streaming_data.value, r.streaming_data.value;
      && after.formats == before.formats
      && after.hls_manifest_url == before.hls_manifest_url
      && after.adaptive_formats == FilterFormats(filter, before.adaptive_formats)
      && after.dash_file == Some(toDash(before.(adaptive_formats := after.adaptive_formats), hostname))
  {
    match info.streaming_data
    case None => info
    case Some(sd) =>
      var narrowed := sd.(adaptive_formats := FilterFormats(filter, sd.adaptive_formats));
      info.(streaming_data := Some(narrowed.(dash_file := Some(toDash(narrowed, hostname)))))
  }

  /**
   * One iteration of the latest shape's loop: an entry carrying a signature
   * cipher gets the deciphered URL, any other entry is kept as it is.
   */
  function Deciphered(decipher: Format -> string, f: Format): (g: Format)
    ensures g.itag == f.itag && g.mime_type == f.mime_type
    ensures g.signature_cipher == f.signature_cipher
    ensures Truthy(f.signature_cipher) ==> g.url == Some(decipher(f))
    ensures !Truthy(f.signature_cipher) ==> g == f
  {
    if Truthy(f.signature_cipher) then f.(url := Some(decipher(f))) else f
  }

  /** The latest shape's rewrite of `formats`, entry by entry. */
  function DecipherAll(decipher: Format -> string, fs: seq<Format>): (r: seq<Format>)
    ensures |r| == |fs|
  {
    seq(|fs|, k requires 0 <= k < |fs| => Deciphered(decipher, fs[k]))
  }

  /**
   * The loop `for (let format of formats) { ...; formats.push(format) }`:
   * the new list has the same length and order, each entry deciphered.
   */
  method DecipherFormats(decipher: Format -> string, fs: seq<Format>) returns (out: seq<Format>)
    ensures |out| == |fs|
    ensures forall k :: 0 <= k < |fs| ==> out[k].itag == fs[k].itag && out[k].mime_type == fs[k].mime_type
    ensures forall k :: 0 <= k < |fs| && Truthy(fs[k].signature_cipher) ==> out[k].url == Some(decipher(fs[k]))
    ensures forall k :: 0 <= k < |fs| && !Truthy(fs[k].signature_cipher) ==> out[k] == fs[k]
    ensures out == DecipherAll(decipher, fs)
  {
    out := [];
    for i := 0 to |fs|
      invariant |out| == i
      invariant forall k :: 0 <= k < i ==> out[k] == Deciphered(decipher, fs[k])
    {
      var format := fs[i];
      if Truthy(format.signature_cipher) {
        format := format.(url := Some(decipher(format)));
      }
      out := out + [format];
    }
  }

  /**
   * The latest shape: decipher `formats`, leave `adaptive_formats` and every
   * other field untouched.
   */
  function ShapeLatest(decipher: Format -> string, info: VideoInfo): (r: VideoInfo)
    ensures r.playability_status == info.playability_status
    ensures r.basic_info == info.basic_info
    ensures r.streaming_data.Some? <==> info.streaming_data.Some?
    ensures r.streaming_data.Some? ==>
      var before, after := info.streaming_data.value, r.streaming_data.value;
      && after.adaptive_formats == before.adaptive_formats
      && after.hls_manifest_url == before.hls_manifest_url
      && after.dash_file == before.dash_file
      && |after.formats| == |before.formats|
      && (forall k :: 0 <= k < |after.formats| ==> after.formats[k] == Deciphered(decipher, before.formats[k]))
  {
    match info.streaming_data
    case None => info
    case Some(sd) => info.(streaming_data := Some(sd.(formats := DecipherAll(decipher, sd.formats))))
  }
}

=== FILE: urls.dfy ===
/**
 * The slice of WHATWG URL handling the proxy relies on: `new URL(text)` for
 * an absolute `scheme://host/path?query#fragment` address, reading
 * `pathname`, assigning `host`, and turning the object back into text.
 */
module Urls {
  import opened Outcomes
  import opened JsText

  /** A parsed absolute URL; `tail` is the query and fragment, kept verbatim. */
  datatype Url = Url(scheme: string, host: string, path: string, tail: string)

  /** Characters that end the host part. */
  predicate EndsHost(c: char) {
    c == '/' || c == '?' || c == '#'
  }

  /** Characters that end the path part. */
  predicate EndsPath(c: char) {
    c == '?' || c == '#'
  }

  /** The first index at or after `k` holding a character that ends the host. */
  function HostEnd(s: string, k: nat): (e: nat)
    requires k <= |s|
    ensures k <= e <= |s|
    ensures forall j :: k <= j < e ==> !EndsHost(s[j])
    ensures e == |s| || EndsHost(s[e])
    decreases |s| - k
  {
    if k == |s| || EndsHost(s[k]) then k else HostEnd(s, k + 1)
  }

  /** The first index at or after `k` holding a character that ends the path. */
  function PathEnd(s: string, k: nat): (e: nat)
    requires k <= |s|
    ensures k <= e <= |s|
    ensures forall j :: k <= j < e ==> !EndsPath(s[j])
    ensures e == |s| || EndsPath(s[e])
    decreases |s| - k
  {
    if k == |s| || EndsPath(s[k]) then k else PathEnd(s, k + 1)
  }

  /**
   * `new URL(text)` for absolute URLs: `None` stands for the `TypeError`
   * the constructor throws (no `://`, an empty scheme or one holding `:`,
   * an empty host). An empty path is normalised to `/`.
   */
  function ParseUrl(s: string): (u: Option<Url>)
    ensures u.Some? ==> WellFormed(u.value)
    ensures IndexOf(s, "://").None? ==> u.None?
  {
    match IndexOf(s, "://")
    case None => None
    case Some(i) =>
      if i == 0 || ':' in s[..i] then None
      else
        var h := HostEnd(s, i + 3);
        if h == i + 3 then None
        else
          var e := PathEnd(s, h);
          var path := if e == h then "/" else s[h..e];
          PiecesWellFormed(s, i, h, e);
          Some(Url(s[..i], s[i + 3..h], path, s[e..]))
  }

  /** The pieces `ParseUrl` cuts out of a text form a well-formed URL. */
  lemma PiecesWellFormed(s: string, i: nat, h: nat, e: nat)
    requires 0 < i && i + 3 < h <= e <= |s|
    requires ':' !in s[..i]
    requires forall j :: i + 3 <= j < h ==> !EndsHost(s[j])
    requires h == |s| || EndsHost(s[h])
    requires forall j :: h <= j < e ==> !EndsPath(s[j])
    requires e == |s| || EndsPath(s[e])
    ensures WellFormed(Url(s[..i], s[i + 3..h], if e == h then "/" else s[h..e], s[e..]))
  {
    var scheme := s[..i];
    assert forall k :: 0 <= k < |scheme| ==> scheme[k] != ':' by {
      forall k | 0 <= k < |scheme| ensures scheme[k] != ':' {
        assert scheme[k] in scheme;
      }
    }
    var host := s[i + 3..h];
    assert forall k :: 0 <= k < |host| ==> !EndsHost(host[k]) by {
      forall k | 0 <= k < |host| ensures !EndsHost(host[k]) {
        assert host[k] == s[i + 3 + k];
      }
    }
    if e > h {
      var path := s[h..e];
      assert path[0] == s[h];
      forall k | 0 <= k < |path| ensures !EndsPath(path[k]) {
        assert path[k] == s[h + k];
      }
    }
    var tail := s[e..];
    assert tail != "" ==> tail[0] == s[e];
  }

  /** The text of a URL object (`String(url)`). */
  function Serialize(u: Url): (r: string)
    ensures WellFormed(u) ==> IndexOf(r, "://") == Some(|u.scheme|)
  {
    var s := u.scheme + "://" + u.host + u.path + u.tail;
    SchemeEndsFirst(u, s);
    s
  }

  /** A host text that can stand in the host part of a URL. */
  predicate ValidHost(host: string) {
    |host| > 0 && forall k :: 0 <= k < |host| ==> !EndsHost(host[k])
  }

  /** `url.host = host`: only the host changes. */
  function WithHost(u: Url, host: string): (r: Url)
    requires ValidHost(host)
    ensures WellFormed(u) ==> WellFormed(r)
    ensures r.scheme == u.scheme && r.path == u.path && r.tail == u.tail
    ensures r.host == host
  {
    u.(host := host)
  }

  /**
   * Rewriting the host of a parsed URL and writing it out gives a text that
   * parses back to the same scheme, path, query and fragment, at the new host.
   */
  lemma RewrittenHostParses(s: string, host: string)
    requires ValidHost(host) && ParseUrl(s).Some?
    ensures var u := ParseUrl(s).value;
      ParseUrl(Serialize(WithHost(u, host))) == Some(Url(u.scheme, host, u.path, u.tail))
  {
    ParseSerialize(WithHost(ParseUrl(s).value, host));
  }

  /** The URLs `ParseUrl` can produce and `Serialize` writes out faithfully. */
  predicate WellFormed(u: Url) {
    && |u.scheme| > 0 && (forall k :: 0 <= k < |u.scheme| ==> u.scheme[k] != ':')
    && |u.host| > 0 && (forall k :: 0 <= k < |u.host| ==> !EndsHost(u.host[k]))
    && |u.path| > 0 && u.path[0] == '/' && (forall k :: 0 <= k < |u.path| ==> !EndsPath(u.path[k]))
    && (u.tail == "" || EndsPath(u.tail[0]))
  }

  /** In the text of a well-formed URL the first `://` ends the scheme. */
  lemma SchemeEndsFirst(u: Url, s: string)
    requires s == u.scheme + "://" + u.host + u.path + u.tail
    ensures WellFormed(u) ==> IndexOf(s, "://") == Some(|u.scheme|)
  {
    if WellFormed(u) {
      var a := |u.scheme|;
      assert s[a..a + 3] == "://";
      assert OccursAt(s, "://", a);
      forall j | 0 <= j < a
        ensures !OccursAt(s, "://", j)
      {
        assert s[j] == u.scheme[j];
      }
    }
  }

  /** In the text of a well-formed URL the host ends where the path starts. */
  lemma HostEndsAtPath(u: Url, s: string, a: nat, b: nat)
    requires WellFormed(u) && s == Serialize(u)
    requires a == |u.scheme| + 3 && b == a + |u.host|
    ensures HostEnd(s, a) == b
  {
    forall j | a <= j < b
      ensures !EndsHost(s[j])
    {
      assert s[j] == u.host[j - a];
    }
    assert s[b] == u.path[0];
  }

  /** In the text of a well-formed URL the path ends where the tail starts. */
  lemma PathEndsAtTail(u: Url, s: string, b: nat, c: nat)
    requires WellFormed(u) && s == Serialize(u)
    requires b == |u.scheme| + 3 + |u.host| && c == b + |u.path|
    ensures PathEnd(s, b) == c
  {
    forall j | b <= j < c
      ensures !EndsPath(s[j])
    {
      assert s[j] == u.path[j - b];
    }
    if c < |s| {
      assert s[c] == u.tail[0];
    }
  }

  /** `ParseUrl` on a text whose separators are known, with a non-empty path. */
  lemma ParseAt(s: string, i: nat, a: nat, b: nat, c: nat)
    requires IndexOf(s, "://") == Some(i) && 0 < i && a == i + 3 && ':' !in s[..i]
    requires a < b <= |s| && HostEnd(s, a) == b
    requires b < c <= |s| && PathEnd(s, b) == c
    ensures ParseUrl(s) == Some(Url(s[..i], s[a..b], s[b..c], s[c..]))
  {
  }

  /** Parsing the text of a well-formed URL gives the URL back. */
  lemma ParseSerialize(u: Url)
    requires WellFormed(u)
    ensures ParseUrl(Serialize(u)) == Some(u)
  {
    var s := Serialize(u);
    var i := |u.scheme|;
    var a := i + 3;
    var b := a + |u.host|;
    var c := b + |u.path|;
    SchemeEndsFirst(u, s);
    HostEndsAtPath(u, s, a, b);
    PathEndsAtTail(u, s, b, c);
    assert s[..i] == u.scheme;
    assert ':' !in s[..i];
    ParseAt(s, i, a, b, c);
    assert s[a..b] == u.host;
    assert s[b..c] == u.path;
    assert s[c..] == u.tail;
  }
}

=== FILE: video.dfy ===
/**
 * The records the proxy passes around: the upstream video-info record, its
 * formats, and the trimmed projection of it that is kept in the cache.
 */
module Video {
  import opened Outcomes

  /** One entry of `formats` or `adaptive_formats`. */
  datatype Format = Format(
    itag: int,
    mime_type: string,
    url: Option<string>,
    signature_cipher: Option<string>)

  /**
   * `streaming_data`; `dash_file` is the manifest the dash shape adds to it,
   * absent in every record the upstream returns.
   */
  datatype StreamingData = StreamingData(
    formats: seq<Format>,
    adaptive_formats: seq<Format>,
    hls_manifest_url: Option<string>,
    dash_file: Option<string>)

  datatype PlayabilityStatus = PlayabilityStatus(status: string, reason: Option<string>)

  /**
   * The record `getBasicInfo` returns. `basic_info` stands for every other
   * top-level field (title, author, ...): returned to the caller, never cached.
   */
  datatype VideoInfo = VideoInfo(
    playability_status: PlayabilityStatus,
    streaming_data: Option<StreamingData>,
    basic_info: map<string, string>)

  /** What the cache stores under a key: `{streaming_data, playability_status}`. */
  datatype CacheEntry = CacheEntry(
    playability_status: PlayabilityStatus,
    streaming_data: Option<StreamingData>)

  /** The key/value store, seen between two requests: absent keys are misses. */
  type Cache = map<string, CacheEntry>

  /** JavaScript truthiness of an optional string: defined and non-empty. */
  predicate Truthy(v: Option<string>) {
    v.Some? && v.value != ""
  }

  const OkStatus := "OK"
  const NotOkStatus := "Not OK"
  const UnavailablePrefix := "Video unavailable: "

  /** The handlers' test: the status is exactly `"OK"`. */
  predicate Playable(info: VideoInfo) {
    info.playability_status.status == OkStatus
  }

  /** The projection written to the cache. */
  function Trim(info: VideoInfo): CacheEntry {
    CacheEntry(info.playability_status, info.streaming_data)
  }

  /**
   * The cache keeps exactly the status and the streaming data: two records
   * trim alike exactly when they agree on those, and a restored entry has
   * nothing else.
   */
  lemma TrimKeepsCachedFields(a: VideoInfo, b: VideoInfo)
    ensures Trim(a) == Trim(b) <==>
      a.playability_status == b.playability_status && a.streaming_data == b.streaming_data
    ensures var back := Restore(Trim(a));
      && back.playability_status == a.playability_status
      && back.streaming_data == a.streaming_data
      && back.basic_info == map[]
  {
  }

  /** A cached entry handed back as a video-info record. */
  function Restore(e: CacheEntry): (info: VideoInfo)
    ensures Trim(info) == e
    ensures info.basic_info == map[]
  {
    VideoInfo(e.playability_status, e.streaming_data, map[])
  }

  /** The placeholder written when the first upstream call throws. */
  function NegativeEntry(videoId: string): (e: CacheEntry)
    ensures e.playability_status.status != OkStatus
    ensures Truthy(e.playability_status.reason)
    ensures e.streaming_data.None?
  {
    CacheEntry(PlayabilityStatus(NotOkStatus, Some(UnavailablePrefix + videoId)), None)
  }
}
